=== FILE: README.md ===
# Main-thread dispatch and sequential focus navigation, in Dafny

This project models two pieces of a WebKit port and proves properties of the
models.

**WTF's main-thread dispatcher** (`MainThread.cpp`, the `PLATFORM(WKC)` build)
lets any thread append a work item to a FIFO queue with `callOnMainThread`.
The main thread drains that queue in `dispatchFunctionsFromMainThread`. A
drain stops once it has run for longer than `maxRunLoopSuspensionTime`
(50 ms), re-arms the platform hook and gives the run loop back. Callbacks can
be paused and resumed. The file also keeps a registry of GC threads. The
module `MainThread` models all of this as a sequential state machine over a
`Dispatcher` record:

- the platform hook `scheduleDispatchFunctionsOnMainThread` is a call counter
  plus a pending-request flag, which the run loop clears when it calls the
  drain;
- the clock is injected: every executed item comes with an `Effect`, which
  gives its duration and the items it dispatched while it ran.

The state-machine lemmas prove that every reachable state keeps an invariant:
unpaused queued work always has a drain request outstanding. They also prove
that time-boxed drains never lose work.

**WebCore's FocusController** (`FocusController.cpp`) picks the element that
Tab and Shift-Tab move to inside one focus navigation scope. Three modules
cover it:

- `FocusOrder` works on the scope as the sequence of its nodes in scope
  order. It models `shadowAdjustedTabIndex`, the three search helpers and
  `next/previousFocusableElementOrScopeOwner`. It proves that two searches
  follow the sequential focus navigation order of the HTML Living Standard
  (section 6.6.3, "The tabindex attribute"): positive tab indices first in
  ascending order, then tab index 0, ties in tree order. The first is Tab, in
  scopes where a node without a tabindex attribute reports a tab index of
  at most 0. The second is Shift-Tab with the INT_MAX cap of
  FocusController.cpp:727 removed. It also proves that these two undo each
  other in such scopes. Shift-Tab as written differs from the corrected
  search only when an element has tab index INT_MAX (see "## Findings").
- `FocusScope`, `FocusScopeLift` and `FocusScopeOrder` model
  `FocusNavigationScope`'s tree walk (`nextInScope` / `previousInScope`) on
  a tree. They prove that this walk steps through exactly the flattened
  order that `FocusOrder` uses.
- `FocusController` models `setActivityState`, the re-entrancy guard of
  `setFocusedFrame` and `distanceBetweenRectAndPoint`.

Source paths below are relative to the repository root of the two WebKit
trees:

- `webkit_1.15.4/WTF/wtf/MainThread.cpp`
- `webkit_1.13.9/WebCore/page/FocusController.cpp`

## Model

| member | source | states |
|---|---|---|
| MainThread.InitializeMainThread | webkit_1.15.4/WTF/wtf/MainThread.cpp:79-99 | The first call makes its caller the main thread and allocates the GC registry empty, with no thread registered (keeping one that already exists). Every later call leaves the state unchanged. The queue, pause flag and hook are untouched. |
| MainThread.InitializeIsIdempotent | webkit_1.15.4/WTF/wtf/MainThread.cpp:79-99 | Two initializations, by any two threads, equal the first one alone. Afterwards exactly the first caller is the main thread. |
| MainThread.InitializeGCThreads | webkit_1.15.4/WTF/wtf/MainThread.cpp:218-232 | The registry exists afterwards. It is empty if it was just allocated, and kept with every registration if it existed. Nothing else changes. |
| MainThread.RegisterGCThread | webkit_1.15.4/WTF/wtf/MainThread.cpp:234-243 | Without a registry nothing happens. Otherwise the caller's slot holds the given role, every other thread keeps its slot, and nothing else changes. |
| MainThread.MayBeGCThread | webkit_1.15.4/WTF/wtf/MainThread.cpp:253-260 | None without a registry. Otherwise it returns a role exactly when the thread registered, and that role is the one it registered. |
| MainThread.RegisterThenQuery | webkit_1.15.4/WTF/wtf/MainThread.cpp:234-260 | After registering, the caller reports exactly its role and counts as a GC-or-main thread. Every other thread reports what it did before. |
| MainThread.UnregisteredIsOnlyMain | webkit_1.15.4/WTF/wtf/MainThread.cpp:245-251 | A thread that never registered is a GC-or-main thread exactly when it is the main thread. |
| MainThread.CallOnMainThread | webkit_1.15.4/WTF/wtf/MainThread.cpp:179-197 | The item goes to the back of the queue. The hook is called, and a drain requested, only when the queue was empty before. Pause state and thread roles are unchanged. |
| MainThread.CallAllOnMainThread | webkit_1.15.4/WTF/wtf/MainThread.cpp:179-197 | A series of dispatches appends the items in call order. It calls the hook exactly once if it takes the queue from empty to non-empty, and never otherwise. |
| MainThread.RunFront | webkit_1.15.4/WTF/wtf/MainThread.cpp:157-166 | Taking the front item and running it leaves the rest of the queue followed by what the item dispatched. Without dispatches, the hook and the request are untouched. |
| MainThread.DispatchLoop | webkit_1.15.4/WTF/wtf/MainThread.cpp:150-176 | The loop either empties the queue or yields with a drain request outstanding. It runs at least one item when the queue is not empty, and never drops a pending request. |
| MainThread.LoopKeepsOrder | webkit_1.15.4/WTF/wtf/MainThread.cpp:150-166 | FIFO, with no loss and no duplicates: the items the loop ran, followed by what remains queued, equal the original queue followed by the items the executed ones dispatched, in order. |
| MainThread.LoopRespectsBudget | webkit_1.15.4/WTF/wtf/MainThread.cpp:146-175 | Elapsed time exceeds the budget after an executed item exactly when the loop yields and that item is the last one it ran. |
| MainThread.LoopHookCalls | webkit_1.15.4/WTF/wtf/MainThread.cpp:172-175 | When the running items dispatch nothing, the loop calls the hook once when it yields and not at all otherwise. |
| MainThread.DispatchFunctionsFromMainThread | webkit_1.15.4/WTF/wtf/MainThread.cpp:139-177 | While paused, nothing happens. Otherwise FIFO and no loss hold, the loop yields exactly when the time budget is exceeded, a non-yielding drain empties the queue. When the items dispatch nothing, the hook is called once if the loop yields and never otherwise. |
| MainThread.DrainRunsPrefix | webkit_1.15.4/WTF/wtf/MainThread.cpp:150-166 | When items dispatch nothing, a drain runs a prefix of the queue in order and leaves exactly the remaining suffix queued. |
| MainThread.FifoAcrossCalls | webkit_1.15.4/WTF/wtf/MainThread.cpp:139-197 | Items from any series of callOnMainThread calls run after what was already queued, in call order, when the drain has time for all of them. |
| MainThread.SetMainThreadCallbacksPaused | webkit_1.15.4/WTF/wtf/MainThread.cpp:199-210 | Setting the current value changes nothing. Pausing never calls the hook. Resuming calls it exactly once and requests a drain, even when the queue is empty (MainThread.cpp:208-209). The queue and roles are unchanged. |
| MainThread.CallOnMainThreadAndWait | webkit_1.15.4/WTF/wtf/MainThread.cpp:262-286 | On the main thread the item runs inline and only its own dispatches reach the queue. On any other thread the call is exactly callOnMainThread of the item. |
| MainThread.InitialIsValid | webkit_1.15.4/WTF/wtf/MainThread.cpp:44-75 | The state before anything ran satisfies the dispatcher invariant: not paused, no main thread, an empty queue, and no GC registry (the null isGCThread pointer of line 213). |
| MainThread.StepKeepsValid | webkit_1.15.4/WTF/wtf/MainThread.cpp:139-210 | Every operation keeps three facts: unpaused queued work has a drain request outstanding, work is queued only after initialization, and initialization implies a registry. |
| MainThread.RunKeepsValid | webkit_1.15.4/WTF/wtf/MainThread.cpp:139-210 | Every state reachable by any sequence of enabled operations satisfies the invariant. |
| MainThread.RunLoopEmptiesQueue | webkit_1.15.4/WTF/wtf/MainThread.cpp:168-175 | Yielding never loses work. With callbacks resumed and no new dispatches, as many run-loop drains as there are queued items empty the queue, however long each item runs. |
| FocusOrder.AdjustedTabIndex | webkit_1.13.9/WebCore/page/FocusController.cpp:300-317 | A scope owner that cannot take focus and has no tabindex attribute ranks as tab index 0. Every other node keeps its own tab index. |
| FocusOrder.NextInScope | webkit_1.13.9/WebCore/page/FocusController.cpp:196-207 | On the flattened scope the next node is the one at the following index. There is none exactly after the last node. |
| FocusOrder.PreviousInScope | webkit_1.13.9/WebCore/page/FocusController.cpp:209-218 | On the flattened scope the previous node is the one at the preceding index. There is none exactly at the scope root. |
| FocusOrder.FindElementWithExactTabIndex | webkit_1.13.9/WebCore/page/FocusController.cpp:591-602 | Returns the first candidate with the given adjusted tab index met walking from start (inclusive) in the given direction. None means no node in that part of the scope qualifies. |
| FocusOrder.GreaterScan | webkit_1.13.9/WebCore/page/FocusController.cpp:607-620 | The loop keeps the winner among the nodes seen so far: the candidate with the lowest own tab index above the bound, and the earliest on a tie. |
| FocusOrder.NextElementWithGreaterTabIndex | webkit_1.13.9/WebCore/page/FocusController.cpp:604-621 | Returns the candidate whose own tab index is the lowest one above t, the first in scope order on a tie. None means no candidate's tab index exceeds t. |
| FocusOrder.LowerScan | webkit_1.13.9/WebCore/page/FocusController.cpp:626-638 | The backward loop keeps the winner among the nodes seen so far: the highest positive adjusted tab index below the bound, and the latest on a tie. |
| FocusOrder.PreviousElementWithLowerTabIndex | webkit_1.13.9/WebCore/page/FocusController.cpp:623-639 | Among the nodes up to start, returns the candidate with the highest positive adjusted tab index below the bound, the last in scope order on a tie. None means there is no such candidate. |
| FocusOrder.NextFocusable | webkit_1.13.9/WebCore/page/FocusController.cpp:655-690 | From a negative tab index: the next node in the tabbing order in tree order. From tab index 0: the next tab index 0 node, and None exactly after the last one. From null: the lowest positive tab index, else the first tab index 0 node. |
| FocusOrder.PreviousFocusableWith | webkit_1.13.9/WebCore/page/FocusController.cpp:692-729 | The shared body of the backward search, with the "no bound" value of line 727 as a parameter. Any result is a focusable element or scope owner of the scope. |
| FocusOrder.PreviousFocusableAsWritten | webkit_1.13.9/WebCore/page/FocusController.cpp:692-729 | The backward search with INT_MAX as the missing bound, exactly as written. Any result is a candidate. |
| FocusOrder.PreviousFocusable | webkit_1.13.9/WebCore/page/FocusController.cpp:692-729 | The backward search with no bound. From a negative tab index it returns the nearest earlier node in the tabbing order, in tree order. |
| FocusOrder.PrecedesIsStrictTotalOrder | webkit_1.13.9/WebCore/page/FocusController.cpp:681-683 | The reference order (positive tab indices ascending, then tab index 0, ties in scope order) is irreflexive, asymmetric, total and transitive on the nodes in the tabbing order. |
| FocusOrder.GreaterIsAdjusted | webkit_1.13.9/WebCore/page/FocusController.cpp:310-317 | In a scope where nodes without a tabindex attribute report at most 0, own and adjusted tab index agree above any non-negative bound. So the greater-search's use of tabIndex() is harmless there. |
| FocusOrder.NextFollowsTabOrder | webkit_1.13.9/WebCore/page/FocusController.cpp:655-690 | Tab from a node in the order, or from null, returns its successor in the reference order. None means nothing follows. |
| FocusOrder.NextFromTabIndexZero | webkit_1.13.9/WebCore/page/FocusController.cpp:673-678 | From a tab index 0 node, the result is the reference successor, or None after the last node. |
| FocusOrder.NextFromPositive | webkit_1.13.9/WebCore/page/FocusController.cpp:673-689 | From a positive tab index node, the result is the reference successor, or None after the last node. |
| FocusOrder.NextFromBeginning | webkit_1.13.9/WebCore/page/FocusController.cpp:681-689 | From null, the result is the first node of the reference order, or None when the order is empty. |
| FocusOrder.PreviousFollowsTabOrder | webkit_1.13.9/WebCore/page/FocusController.cpp:692-729 | Shift-Tab from a node in the order, or from null, returns its predecessor in the reference order. None means nothing precedes. |
| FocusOrder.PreviousUndoesNext | webkit_1.13.9/WebCore/page/FocusController.cpp:655-729 | Tab and then Shift-Tab come back to the starting node. |
| FocusOrder.NextUndoesPrevious | webkit_1.13.9/WebCore/page/FocusController.cpp:655-729 | Shift-Tab and then Tab come back to the starting node. |
| FocusOrder.AsWrittenAgreesBelowIntMax | webkit_1.13.9/WebCore/page/FocusController.cpp:727-728 | When no node has tab index INT_MAX, the as-written backward search and the corrected one agree. |
| FocusOrder.IntMaxTabIndexUnreachableBackward | webkit_1.13.9/WebCore/page/FocusController.cpp:727-728 | For a scope whose document root holds one focusable element with tabindex 2147483647: Tab from null reaches it, the as-written Shift-Tab from null returns null, and the corrected one reaches it. |
| FocusScope.FirstChildInScope | webkit_1.13.9/WebCore/page/FocusController.cpp:125-130 | A scope owner has no first child in the scope. Any other node with children has its first child. |
| FocusScope.LastChildInScope | webkit_1.13.9/WebCore/page/FocusController.cpp:132-137 | A scope owner has no last child in the scope. Any other node with children has its last child. |
| FocusScope.ParentInScope | webkit_1.13.9/WebCore/page/FocusController.cpp:139-148 | The scope root has no parent in the scope. Every other node has its parent. |
| FocusScope.NextSiblingInScope | webkit_1.13.9/WebCore/page/FocusController.cpp:150-160 | The scope root has no sibling. Any other node has one exactly when it is not its parent's last child, and it is the following sibling under the same parent. |
| FocusScope.PreviousSiblingInScope | webkit_1.13.9/WebCore/page/FocusController.cpp:162-172 | The scope root has no sibling. Any other node has one exactly when it is not its parent's first child, and it is the preceding sibling under the same parent. |
| FocusScope.LastDescendantEndsDescent | webkit_1.13.9/WebCore/page/FocusController.cpp:209-215 | The descent of previousInScope reaches a node of the tree that has no last child in the scope, which is where the source's loop stops. |
| FocusScopeOrder.ScopeOrder | webkit_1.13.9/WebCore/page/FocusController.cpp:174-183 | The scope order is never empty and starts at the scope root, which is firstNodeInScope. |
| FocusScopeOrder.NextInScopeFollowsScopeOrder | webkit_1.13.9/WebCore/page/FocusController.cpp:196-207 | nextInScope moves from each node of the pre-order (which skips the insides of scope owners) to the node after it, and from the last node to null. |
| FocusScopeOrder.PreviousInScopeFollowsScopeOrder | webkit_1.13.9/WebCore/page/FocusController.cpp:209-218 | previousInScope moves from each node of that order to the node before it, and from the scope root to null. |
| FocusScopeOrder.LastOfScopeOrder | webkit_1.13.9/WebCore/page/FocusController.cpp:694-697 | The `last` node that previousFocusableElementOrScopeOwner computes (the deepest last descendant of the root) is the last node of the scope order. |
| FocusScopeOrder.TreeWalkIsFlatWalk | webkit_1.13.9/WebCore/page/FocusController.cpp:196-218 | Stepping with nextInScope or previousInScope in the tree is stepping by one index in the flattened scope that FocusOrder works on. |
| FocusController.Changed | webkit_1.13.9/WebCore/page/FocusController.cpp:863 | A flag changed exactly when it is in one of the old and new flag sets but not in both. |
| FocusController.ActivityUpdates | webkit_1.13.9/WebCore/page/FocusController.cpp:861-873 | The focus update runs exactly when IsFocused changed, and the active update exactly when WindowIsActive changed. The visibility update runs exactly when both WindowIsActive and IsVisible changed. Each update gets the new value, never the old one. They run at most once each, in the order focus, active, visibility. |
| FocusController.SetActivityState | webkit_1.13.9/WebCore/page/FocusController.cpp:861-873 | The new flags are stored and the updates above run. The focused frame changes exactly when IsFocused changed, no frame had focus and no frame change is in progress. Then the main frame gets focus, with a focus event iff it has a view and the new flags say focused, and the chrome is told. So the focus update always finds a frame unless a change is in progress. |
| FocusController.FocusMainFrame | webkit_1.13.9/WebCore/page/FocusController.cpp:379-380 | setFocusedFrame of the main frame, with no frame focused and no change in progress, stores it and sends exactly a focus event (iff it has a view and the page is focused) and then the chrome notification. |
| FocusController.SetActivityStateIdempotent | webkit_1.13.9/WebCore/page/FocusController.cpp:861-873 | Setting the same flags a second time runs no update, sends no frame event and leaves the state as it is. |
| FocusController.OtherBitsRunNothing | webkit_1.13.9/WebCore/page/FocusController.cpp:861-873 | A change that leaves IsFocused and WindowIsActive as they were runs no update, sends no frame event and only stores the flags. |
| FocusController.SetActivityStateRoundTrip | webkit_1.13.9/WebCore/page/FocusController.cpp:374-380 | Changing the flags and changing them back restores everything except the focused frame: a main frame focused on the way there stays focused. The controller comes back exactly when the way there focused no frame, and the way back never changes the frame. |
| FocusController.SetActivityStateRoundTripUpdates | webkit_1.13.9/WebCore/page/FocusController.cpp:861-873 | The way back runs the same updates as the way there, each with the opposite argument. |
| FocusController.UpdatesReverse | webkit_1.13.9/WebCore/page/FocusController.cpp:863-872 | Swapping the old and new flags swaps the argument of every update and keeps which updates run. |
| FocusController.SetFocusedFrame | webkit_1.13.9/WebCore/page/FocusController.cpp:333-360 | Refocusing the current frame, or any call during a change, does nothing. Otherwise the new frame is stored and the guard released. Blur goes to the old frame iff it has a view, and focus to the new one iff it has a view and the page is focused. No other event is sent: the blur comes first, the focus right before the chrome notification, and the chrome is told once, last. |
| FocusController.NestedSetFocusedFrame | webkit_1.13.9/WebCore/page/FocusController.cpp:336-337 | Calls that event handlers make while a change is in progress change nothing and send no events. |
| FocusController.SetFocusedFrameTwice | webkit_1.13.9/WebCore/page/FocusController.cpp:333-337 | Setting the same frame twice in a row: the second call does nothing. |
| FocusController.Gap | webkit_1.13.9/WebCore/page/FocusController.cpp:1771-1782 | The gap on one axis is never negative and is 0 between the edges. |
| FocusController.DistanceBetweenRectAndPoint | webkit_1.13.9/WebCore/page/FocusController.cpp:1765-1784 | The distance is never negative and is 0 for a point inside the rectangle. |
| FocusController.DistanceIsSquaredDistanceToRect | webkit_1.13.9/WebCore/page/FocusController.cpp:1765-1784 | For a rectangle of non-negative size, the distance is the squared Euclidean distance to the nearest point of the closed rectangle. No point of that rectangle is nearer, and the distance is 0 exactly on it. |

## Left out

- Locks, real threads and blocking are not modelled. Operations happen one at a time in any order, and the condition-variable wait of callOnMainThreadAndWait is not modelled (only who runs the item is).
- Real time is not modelled: the clock is the injected duration of every executed item, in milliseconds.
- A work item that pauses callbacks or calls the drain re-entrantly while it runs is not modelled. An item's visible effect is only the items it dispatches.
- The platform hook is recorded, not run: its effect is the outstanding request that the run loop serves.
- The Cocoa and web-thread branches (initializeMainThreadToProcessMainThread, initializeWebThread), canAccessThreadLocalDataForThread, initializeThreading and initializeMainThreadPlatform (called on the WKC path of initializeMainThread, MainThread.cpp:92) are not part of this model. The GCThreadType enumeration is declared in MainThread.h, which is not part of this model either, so roles are opaque values.
- Slot-element scopes (m_slotElement), the scope owner and scopeOf lookups, and the crossing between scopes (findFocusableElementAcrossFocusScope and the functions around it) are not part of this model.
- isKeyboardFocusable, isFocusScopeOwner and tabIndex are inputs: each node records them as booleans and an integer.
- Spatial navigation, hit testing, the autoscroll, selection and event work inside setFocusedInternal, setActiveInternal and setIsVisibleAndActiveInternal, and every other function of FocusController.cpp are not part of this model. Of their effects on the controller, only setFocusedInternal's fallback to the main frame is modelled; the others change no controller state.
- FocusController.SetActivityState: when a frame change is in progress and no frame has focus, setFocusedInternal goes on to use a null focused frame (FocusController.cpp:382). The model records the update and changes no frame.
- FocusController.SetFocusedFrame: only re-entrant calls that have no nested calls of their own are modelled. The frame-to-page assertion is not modelled.
- FocusController.NestedSetFocusedFrame: models only the guard's effect on re-entrant calls, not what their own event handlers do.
- FocusController.DistanceBetweenRectAndPoint: does not model 32-bit overflow of the squares or LayoutUnit's fixed-point fractions. Coordinates are whole numbers.
- FocusOrder.NextFollowsTabOrder: stated for scopes in which a node without a tabindex attribute reports a tab index of at most 0, as the comment in shadowAdjustedTabIndex assumes. The lemma does not cover other scopes.
- FocusOrder.NextFromTabIndexZero: the same well-formedness assumption, because nextElementWithGreaterTabIndex compares the unadjusted tabIndex().
- FocusOrder.NextFromPositive: the same well-formedness assumption, for the same reason.
- FocusOrder.NextFromBeginning: the same well-formedness assumption, for the same reason.
- FocusOrder.PreviousUndoesNext: the same well-formedness assumption, inherited from NextFollowsTabOrder.
- FocusOrder.NextUndoesPrevious: the same well-formedness assumption, inherited from NextFollowsTabOrder.
- FocusOrder.PreviousFocusableWith: its own contract only says that a result is a candidate. Its order with no bound is stated through FocusOrder.PreviousFocusable and FocusOrder.PreviousFollowsTabOrder.
- FocusOrder.PreviousFocusableAsWritten: its own contract only says that a result is a candidate. It is tied to the order by FocusOrder.AsWrittenAgreesBelowIntMax, and its defect is shown by FocusOrder.IntMaxTabIndexUnreachableBackward.

## Findings

| source | as written | input that shows it | evidently intended | confidence | as-written member | corrected member |
|---|---|---|---|---|---|---|
| webkit_1.13.9/WebCore/page/FocusController.cpp:727-728 | When start is null or has tab index 0, previousFocusableElementOrScopeOwner searches for the highest tab index strictly below INT_MAX. | A scope (document root first) whose only focusable element has tabindex 2147483647: Tab from null reaches it, but Shift-Tab from null returns null. | Shift-Tab from the end reaches the element with the highest positive tab index, whatever its value, as the forward search does (nextElementWithGreaterTabIndex has no such cap). | medium, not executed | FocusOrder.PreviousFocusableAsWritten (counterexample in FocusOrder.IntMaxTabIndexUnreachableBackward) | FocusOrder.PreviousFocusable (proved in FocusOrder.PreviousFollowsTabOrder) |

=== FILE: FocusController.dfy ===
/** The parts of WebCore's FocusController that keep state apart from the
    DOM: the activity-state flags, the focused frame with its re-entrancy
    guard, and the integer distance used to pick the element nearest a point.
    Frames are opaque ids. The internal update routines are recorded as a
    list of calls; the one change of controller state among them, the
    focused frame that setFocusedInternal falls back to, is performed. */
module FocusController {
  import opened Options

  type FrameId = nat

  /** The bits of ActivityState::Flags that setActivityState tests, and the
      others, which it only stores. */
  datatype ActivityFlag = WindowIsActive | IsFocused | IsVisible | OtherFlag(bit: nat)

  type ActivityFlags = set<ActivityFlag>

  datatype Controller = Controller(
    activityState: ActivityFlags,
    focusedFrame: Option<FrameId>,
    isChangingFocusedFrame: bool)

  /** The internal update routines setActivityState calls, with their argument. */
  datatype Update =
    | SetFocusedInternal(focused: bool)
    | SetActiveInternal(active: bool)
    | SetIsVisibleAndActiveInternal(contentIsVisible: bool)

  /** What setActivityState did: the controller afterwards, the internal
      update routines it called, and the frame events of the setFocusedFrame
      call that setFocusedInternal makes when no frame has focus. */
  datatype ActivityChange = ActivityChange(after: Controller, updates: seq<Update>, frameEvents: seq<FrameEvent>)

  /** `m_activityState ^ activityState`. */
  function Changed(before: ActivityFlags, after: ActivityFlags): (r: ActivityFlags)
    ensures forall f :: f in r <==> (f in before) != (f in after)
  {
    (before - after) + (after - before)
  }

  /** setActivityState: stores the new flags; the focus update runs when
      IsFocused changed, the active update when WindowIsActive changed, and
      the visibility update when WindowIsActive and IsVisible both changed,
      receiving the new WindowIsActive bit. The focus update first gives focus
      to the main frame `mainFrame` when no frame has it, through
      setFocusedFrame with the new flags stored; `withView` are the frames
      that have a view. Calls that the window event handlers make during that
      change are turned away by its guard (NestedSetFocusedFrame), so none
      are passed. The other two routines change no controller state. */
  function SetActivityState(c: Controller, flags: ActivityFlags, mainFrame: FrameId, withView: set<FrameId>): (r: ActivityChange)
    ensures r.after.activityState == flags && r.after.isChangingFocusedFrame == c.isChangingFocusedFrame
    ensures r.updates == ActivityUpdates(c.activityState, flags)
    // the focused frame changes only when the focus update finds none
    ensures r.after.focusedFrame != c.focusedFrame <==>
              (IsFocused in c.activityState) != (IsFocused in flags) && c.focusedFrame.None? && !c.isChangingFocusedFrame
    ensures r.after.focusedFrame != c.focusedFrame ==> r.after.focusedFrame == Some(mainFrame)
    // so the focus update always has a frame to work on, unless a frame change is in progress
    ensures (IsFocused in c.activityState) != (IsFocused in flags) && !c.isChangingFocusedFrame ==>
              r.after.focusedFrame.Some?
    ensures r.after.focusedFrame == c.focusedFrame ==> r.frameEvents == []
    ensures r.after.focusedFrame != c.focusedFrame ==>
              r.frameEvents ==
                (if mainFrame in withView && IsFocused in flags then [FocusWindow(mainFrame)] else [])
                + [FocusedFrameChanged(Some(mainFrame))]
  {
    var changed := Changed(c.activityState, flags);
    var stored := c.(activityState := flags);
    var frameChange :=
      // with a change in progress, setFocusedFrame returns at its guard
      if IsFocused in changed && c.focusedFrame.None? && !c.isChangingFocusedFrame then
        FocusMainFrame(stored, mainFrame, withView);
        SetFocusedFrame(stored, Some(mainFrame), withView, [])
      else FrameChange(stored, []);
    ActivityChange(frameChange.after, ActivityUpdates(c.activityState, flags), frameChange.events)
  }

  /** The internal update routines that setActivityState calls when the
      flags go from `before` to `after`, in order, with their arguments. */
  function ActivityUpdates(before: ActivityFlags, after: ActivityFlags): (r: seq<Update>)
    ensures SetFocusedInternal(IsFocused in after) in r <==> (IsFocused in before) != (IsFocused in after)
    ensures SetActiveInternal(WindowIsActive in after) in r <==> (WindowIsActive in before) != (WindowIsActive in after)
    ensures SetIsVisibleAndActiveInternal(WindowIsActive in after) in r <==>
              (WindowIsActive in before) != (WindowIsActive in after) && (IsVisible in before) != (IsVisible in after)
    // no update ever receives the value the flag had before
    ensures SetFocusedInternal(IsFocused !in after) !in r
    ensures SetActiveInternal(WindowIsActive !in after) !in r
    ensures SetIsVisibleAndActiveInternal(WindowIsActive !in after) !in r
    ensures |r| <= 3
    // each at most once, in the order focus, active, visibility
    ensures forall i, j :: 0 <= i < j < |r| ==> Rank(r[i]) < Rank(r[j])
  {
    var changed := Changed(before, after);
    var focus := if IsFocused in changed then [SetFocusedInternal(IsFocused in after)] else [];
    var active :=
      if WindowIsActive in changed then
        [SetActiveInternal(WindowIsActive in after)]
        + (if IsVisible in changed then [SetIsVisibleAndActiveInternal(WindowIsActive in after)] else [])
      else [];
    focus + active
  }

  /** Setting the flags the controller already has runs no update and
      changes nothing. */
  lemma SetActivityStateIdempotent(c: Controller, flags: ActivityFlags, mainFrame: FrameId, withView: set<FrameId>)
    ensures var once := SetActivityState(c, flags, mainFrame, withView);
      var twice := SetActivityState(once.after, flags, mainFrame, withView);
      twice.updates == [] && twice.frameEvents == [] && twice.after == once.after
  {
  }

  /** Flags that only the other bits distinguish run no update and leave the
      focused frame alone. */
  lemma OtherBitsRunNothing(c: Controller, flags: ActivityFlags, mainFrame: FrameId, withView: set<FrameId>)
    requires IsFocused in c.activityState <==> IsFocused in flags
    requires WindowIsActive in c.activityState <==> WindowIsActive in flags
    ensures var r := SetActivityState(c, flags, mainFrame, withView);
      r.updates == [] && r.frameEvents == [] && r.after == c.(activityState := flags)
  {
  }

  /** Changing the flags and changing them back restores everything but the
      focused frame: a main frame focused on the way there stays focused. So
      the controller comes back exactly when the way there focused no frame. */
  lemma SetActivityStateRoundTrip(c: Controller, flags: ActivityFlags, mainFrame: FrameId, withView: set<FrameId>)
    ensures var there := SetActivityState(c, flags, mainFrame, withView);
      var back := SetActivityState(there.after, c.activityState, mainFrame, withView);
      && back.after == c.(focusedFrame := there.after.focusedFrame)
      && back.frameEvents == []
      && (back.after == c <==> there.frameEvents == [])
  {
    var there := SetActivityState(c, flags, mainFrame, withView);
    var back := SetActivityState(there.after, c.activityState, mainFrame, withView);
    assert back.after.focusedFrame == there.after.focusedFrame;
    assert there.frameEvents == [] <==> there.after.focusedFrame == c.focusedFrame;
  }

  /** Changing the flags and changing them back runs the same kinds of
      update, each with the opposite argument. */
  lemma SetActivityStateRoundTripUpdates(c: Controller, flags: ActivityFlags, mainFrame: FrameId, withView: set<FrameId>, u: Update)
    ensures var there := SetActivityState(c, flags, mainFrame, withView);
      var back := SetActivityState(there.after, c.activityState, mainFrame, withView);
      u in there.updates <==> Opposite(u) in back.updates
  {
    var there := SetActivityState(c, flags, mainFrame, withView);
    assert there.after.activityState == flags;
    UpdatesReverse(c.activityState, flags, u);
  }

  /** Swapping the old and new flags swaps the argument of every update. */
  lemma UpdatesReverse(before: ActivityFlags, after: ActivityFlags, u: Update)
    ensures u in ActivityUpdates(before, after) <==> Opposite(u) in ActivityUpdates(after, before)
  {
    var there := ActivityUpdates(before, after);
    var back := ActivityUpdates(after, before);
    match u
    case SetFocusedInternal(b) =>
      assert u in there <==> (IsFocused in before) != (IsFocused in after) && b == (IsFocused in after);
      assert Opposite(u) in back <==> (IsFocused in before) != (IsFocused in after) && !b == (IsFocused in before);
    case SetActiveInternal(b) =>
      assert u in there <==> (WindowIsActive in before) != (WindowIsActive in after) && b == (WindowIsActive in after);
      assert Opposite(u) in back <==>
        (WindowIsActive in before) != (WindowIsActive in after) && !b == (WindowIsActive in before);
    case SetIsVisibleAndActiveInternal(b) =>
  }

  /** setFocusedFrame(&mainFrame) from a controller that has no focused
      frame and no change in progress. */
  lemma FocusMainFrame(c: Controller, mainFrame: FrameId, withView: set<FrameId>)
    requires c.focusedFrame.None? && !c.isChangingFocusedFrame
    ensures var r := SetFocusedFrame(c, Some(mainFrame), withView, []);
      && r.after == c.(focusedFrame := Some(mainFrame))
      && r.events ==
           (if mainFrame in withView && IsFocused in c.activityState then [FocusWindow(mainFrame)] else [])
           + [FocusedFrameChanged(Some(mainFrame))]
  {
  }

  /** The position of an update routine in setActivityState's body. */
  function Rank(u: Update): nat
  {
    match u
    case SetFocusedInternal(_) => 0
    case SetActiveInternal(_) => 1
    case SetIsVisibleAndActiveInternal(_) => 2
  }

  function Opposite(u: Update): Update
  {
    match u
    case SetFocusedInternal(b) => SetFocusedInternal(!b)
    case SetActiveInternal(b) => SetActiveInternal(!b)
    case SetIsVisibleAndActiveInternal(b) => SetIsVisibleAndActiveInternal(!b)
  }

  // ---------------------------------------------------------------------
  // setFocusedFrame

  /** What setFocusedFrame does outside the controller: unfocus the old
      frame's selection and send it a window blur event, focus the new frame's
      selection and send it a window focus event, tell the chrome client. */
  datatype FrameEvent =
    | BlurWindow(frame: FrameId)
    | FocusWindow(frame: FrameId)
    | FocusedFrameChanged(newFrame: Option<FrameId>)

  datatype FrameChange = FrameChange(after: Controller, events: seq<FrameEvent>)

  /** setFocusedFrame. `withView` are the frames that have a view; `nested`
      are the setFocusedFrame calls that the window event handlers make while
      the change is in progress, each of them with no nested calls of its own. */
  function SetFocusedFrame(c: Controller, frame: Option<FrameId>, withView: set<FrameId>, nested: seq<Option<FrameId>>): (r: FrameChange)
    decreases |nested|, 1
    ensures c.focusedFrame == frame || c.isChangingFocusedFrame ==> r.after == c && r.events == []
    ensures c.focusedFrame != frame && !c.isChangingFocusedFrame ==>
      && r.after == c.(focusedFrame := frame)
      && |r.events| > 0 && r.events[|r.events| - 1] == FocusedFrameChanged(frame)
      // before it, only the old frame's blur (first) and the new frame's focus (just before the chrome)
      && (forall i :: 0 <= i < |r.events| - 1 ==>
            || (r.events[i].BlurWindow? && c.focusedFrame == Some(r.events[i].frame) && i == 0)
            || (r.events[i].FocusWindow? && frame == Some(r.events[i].frame) && i == |r.events| - 2))
      && (HasBlurWindow(r.events, c.focusedFrame) <==> c.focusedFrame.Some? && c.focusedFrame.value in withView)
      && (HasFocusWindow(r.events, frame) <==> frame.Some? && frame.value in withView && IsFocused in c.activityState)
  {
    if c.focusedFrame == frame || c.isChangingFocusedFrame then FrameChange(c, [])
    else
      var oldFrame := c.focusedFrame;
      var changing := c.(isChangingFocusedFrame := true, focusedFrame := frame);
      var blur := if oldFrame.Some? && oldFrame.value in withView then [BlurWindow(oldFrame.value)] else [];
      var focus :=
        if frame.Some? && frame.value in withView && IsFocused in c.activityState then [FocusWindow(frame.value)] else [];
      var during := NestedSetFocusedFrame(changing, withView, nested);
      FrameChange(during.after.(isChangingFocusedFrame := false), blur + focus + during.events + [FocusedFrameChanged(frame)])
  }

  predicate HasBlurWindow(events: seq<FrameEvent>, frame: Option<FrameId>)
  {
    frame.Some? && BlurWindow(frame.value) in events
  }

  predicate HasFocusWindow(events: seq<FrameEvent>, frame: Option<FrameId>)
  {
    frame.Some? && FocusWindow(frame.value) in events
  }

  /** setFocusedFrame calls made, one after the other, while a change is in
      progress: the guard turns every one of them away. */
  function NestedSetFocusedFrame(c: Controller, withView: set<FrameId>, calls: seq<Option<FrameId>>): (r: FrameChange)
    requires c.isChangingFocusedFrame
    decreases |calls|, 0
    ensures r.after == c && r.events == []
  {
    if |calls| == 0 then FrameChange(c, [])
    else
      var first := SetFocusedFrame(c, calls[0], withView, []);
      NestedSetFocusedFrame(first.after, withView, calls[1..])
  }

  /** Focusing the frame that already has focus, or focusing again at once,
      does nothing. */
  lemma SetFocusedFrameTwice(c: Controller, frame: Option<FrameId>, withView: set<FrameId>, nested: seq<Option<FrameId>>)
    requires !c.isChangingFocusedFrame
    ensures var once := SetFocusedFrame(c, frame, withView, nested);
      SetFocusedFrame(once.after, frame, withView, nested) == FrameChange(once.after, [])
  {
  }

  // ---------------------------------------------------------------------
  // distanceBetweenRectAndPoint

  datatype Point = Point(x: int, y: int)

  /** A LayoutRect in whole layout units: origin and size; maxX is x + width. */
  datatype Rect = Rect(x: int, y: int, width: int, height: int)
  {
    function MaxX(): int { x + width }
    function MaxY(): int { y + height }

    /** LayoutRect::contains(LayoutPoint): the right and bottom edges are
        outside. */
    predicate Contains(p: Point)
    {
      x <= p.x < MaxX() && y <= p.y < MaxY()
    }
  }

  /** How far v lies outside [lo, hi] on one axis, as the source computes it. */
  function Gap(v: int, lo: int, hi: int): (r: int)
    ensures r >= 0
    ensures lo <= v <= hi ==> r == 0
  {
    if v < lo then lo - v else if v > hi then v - hi else 0
  }

  /** distanceBetweenRectAndPoint: 0 inside the rectangle, otherwise the sum
      of the squared horizontal and vertical gaps. */
  function DistanceBetweenRectAndPoint(rect: Rect, point: Point): (r: int)
    ensures r >= 0
    ensures rect.Contains(point) ==> r == 0
  {
    if rect.Contains(point) then 0
    else
      var hdistance := Gap(point.x, rect.x, rect.MaxX());
      var vdistance := Gap(point.y, rect.y, rect.MaxY());
      hdistance * hdistance + vdistance * vdistance
  }

  function Clamp(v: int, lo: int, hi: int): (r: int)
    requires lo <= hi
    ensures lo <= r <= hi
  {
    if v < lo then lo else if v > hi then hi else v
  }

  function SquaredDistance(p: Point, q: Point): nat
  {
    (p.x - q.x) * (p.x - q.x) + (p.y - q.y) * (p.y - q.y)
  }

  /** The point of the closed rectangle nearest to p. */
  function NearestInRect(rect: Rect, p: Point): Point
    requires rect.width >= 0 && rect.height >= 0
  {
    Point(Clamp(p.x, rect.x, rect.MaxX()), Clamp(p.y, rect.y, rect.MaxY()))
  }

  predicate InClosedRect(rect: Rect, q: Point)
  {
    rect.x <= q.x <= rect.MaxX() && rect.y <= q.y <= rect.MaxY()
  }

  /** For a rectangle of non-negative size, the distance is the squared
      Euclidean distance from the point to the nearest point of the closed
      rectangle, no point of it is nearer, and it is 0 exactly on the closed
      rectangle. */
  lemma DistanceIsSquaredDistanceToRect(rect: Rect, p: Point, q: Point)
    requires rect.width >= 0 && rect.height >= 0
    ensures DistanceBetweenRectAndPoint(rect, p) == SquaredDistance(p, NearestInRect(rect, p))
    ensures InClosedRect(rect, q) ==> DistanceBetweenRectAndPoint(rect, p) <= SquaredDistance(p, q)
    ensures DistanceBetweenRectAndPoint(rect, p) == 0 <==> InClosedRect(rect, p)
  {
    var n := NearestInRect(rect, p);
    SquareGap(p.x, rect.x, rect.MaxX(), q.x);
    SquareGap(p.y, rect.y, rect.MaxY(), q.y);
  }

  /** One axis of the lemma above. */
  lemma SquareGap(v: int, lo: int, hi: int, w: int)
    requires lo <= hi
    ensures Gap(v, lo, hi) * Gap(v, lo, hi) == (v - Clamp(v, lo, hi)) * (v - Clamp(v, lo, hi))
    ensures lo <= w <= hi ==> Gap(v, lo, hi) * Gap(v, lo, hi) <= (v - w) * (v - w)
    ensures Gap(v, lo, hi) == 0 <==> lo <= v <= hi
  {
    var g := Gap(v, lo, hi);
    if lo <= w <= hi {
      if v < lo {
        assert 0 <= g <= w - v;
        MulMonotone(g, w - v);
      } else if v > hi {
        assert 0 <= g <= v - w;
        MulMonotone(g, v - w);
      }
    }
  }

  lemma MulMonotone(a: nat, b: nat)
    requires a <= b
    ensures a * a <= b * b
  {
    assert a * a <= a * b <= b * b;
  }
}

=== FILE: FocusOrder.dfy ===
/** Sequential (Tab / Shift-Tab) focus navigation inside one focus navigation
    scope of WebCore's FocusController.

    A scope is given as the sequence of its nodes in scope order: the pre-order
    of the scope's tree that does not descend into nested scope owners (the
    module FocusScope proves that this is what nextInScope / previousInScope
    walk). A node is referred to by its index in that sequence, and a null
    `Node*` is `None`. The selection rules follow the sequential focus
    navigation order of the HTML Living Standard, section 6.6.3 "The tabindex
    attribute": positive tab indices first, ascending, ties in tree order, then
    the tab index 0 nodes in tree order; negative tab indices are left out. */
module FocusOrder {
  import opened Options

  /** The C++ `int` range of a tab index. */
  const IntMin: int := -0x8000_0000
  const IntMax: int := 0x7fff_ffff

  type TabIndex = x: int | IntMin <= x <= IntMax

  /** The facts about a DOM node that the selection rules look at. */
  datatype Node = Node(
    isElement: bool,
    keyboardFocusable: bool,
    isScopeOwner: bool,
    tabIndex: TabIndex,
    tabIndexSetExplicitly: bool)

  type Scope = seq<Node>

  datatype Direction = Forward | Backward

  /** isFocusableElementOrScopeOwner, restricted to elements as the callers do. */
  predicate Candidate(n: Node)
  {
    n.isElement && (n.keyboardFocusable || n.isScopeOwner)
  }

  /** shadowAdjustedTabIndex: a scope owner that cannot itself take focus and
      carries no tabindex attribute is ranked as if it had tabindex 0. */
  function AdjustedTabIndex(n: Node): (r: TabIndex)
    ensures r != n.tabIndex ==> r == 0
    ensures !n.keyboardFocusable && n.isScopeOwner && !n.tabIndexSetExplicitly ==> r == 0
    ensures n.keyboardFocusable || !n.isScopeOwner || n.tabIndexSetExplicitly ==> r == n.tabIndex
  {
    if !n.keyboardFocusable && n.isScopeOwner && !n.tabIndexSetExplicitly then 0 else n.tabIndex
  }

  /** The tab index a navigation starts from: that of the start element, 0 for
      a null start or a non-element start. */
  function StartTabIndex(s: Scope, start: Option<nat>): int
    requires start.Some? ==> start.value < |s|
  {
    if start.Some? && s[start.value].isElement then AdjustedTabIndex(s[start.value]) else 0
  }

  predicate HasExactTabIndex(n: Node, t: int)
  {
    Candidate(n) && AdjustedTabIndex(n) == t
  }

  /** A node that takes part in the sequential navigation order. */
  predicate InTabOrder(n: Node)
  {
    Candidate(n) && AdjustedTabIndex(n) >= 0
  }

  /** nextInScope / previousInScope on the flattened scope. */
  function NextInScope(s: Scope, i: nat): (r: Option<nat>)
    requires i < |s|
    ensures r.Some? ==> r.value < |s| && r.value == i + 1
    ensures r.None? <==> i == |s| - 1
  {
    if i + 1 < |s| then Some(i + 1) else None
  }

  function PreviousInScope(s: Scope, i: nat): (r: Option<nat>)
    requires i < |s|
    ensures r.Some? ==> r.value + 1 == i
    ensures r.None? <==> i == 0
  {
    if i > 0 then Some(i - 1) else None
  }

  // ---------------------------------------------------------------------
  // Linear searches

  /** The first index at or after `from` whose node satisfies `p`. */
  function FirstFrom(s: Scope, from: nat, p: Node -> bool): (r: Option<nat>)
    requires from <= |s|
    decreases |s| - from
    ensures r.Some? ==> from <= r.value < |s| && p(s[r.value])
    ensures r.Some? ==> forall j :: from <= j < r.value ==> !p(s[j])
    ensures r.None? ==> forall j :: from <= j < |s| ==> !p(s[j])
  {
    if from == |s| then None
    else if p(s[from]) then Some(from)
    else FirstFrom(s, from + 1, p)
  }

  /** The last index at or before `upto` (-1 for none) whose node satisfies `p`. */
  function LastUpTo(s: Scope, upto: int, p: Node -> bool): (r: Option<nat>)
    requires -1 <= upto < |s|
    decreases upto + 1
    ensures r.Some? ==> r.value <= upto && p(s[r.value])
    ensures r.Some? ==> forall j :: r.value < j <= upto ==> !p(s[j])
    ensures r.None? ==> forall j :: 0 <= j <= upto ==> !p(s[j])
  {
    if upto == -1 then None
    else if p(s[upto]) then Some(upto)
    else LastUpTo(s, upto - 1, p)
  }

  /** A search start given as an optional node, turned into the bound the
      searches above take. */
  function ForwardFrom(s: Scope, start: Option<nat>): nat
    requires start.Some? ==> start.value < |s|
  {
    if start.Some? then start.value else |s|
  }

  function BackwardFrom(s: Scope, start: Option<nat>): int
    requires start.Some? ==> start.value < |s|
  {
    if start.Some? then start.value else -1
  }

  /** findElementWithExactTabIndex: the first node met walking from `start`
      (inclusive) in direction `dir` that is a focusable element or scope owner
      with adjusted tab index `t`; None when the walk ends without one. */
  function FindElementWithExactTabIndex(s: Scope, start: Option<nat>, t: int, dir: Direction): (r: Option<nat>)
    requires start.Some? ==> start.value < |s|
    ensures r.Some? ==> start.Some? && r.value < |s| && HasExactTabIndex(s[r.value], t)
    ensures r.Some? && dir == Forward ==>
      start.value <= r.value && forall j :: start.value <= j < r.value ==> !HasExactTabIndex(s[j], t)
    ensures r.Some? && dir == Backward ==>
      r.value <= start.value && forall j :: r.value < j <= start.value ==> !HasExactTabIndex(s[j], t)
    ensures r.None? && start.Some? && dir == Forward ==>
      forall j :: start.value <= j < |s| ==> !HasExactTabIndex(s[j], t)
    ensures r.None? && start.Some? && dir == Backward ==>
      forall j :: 0 <= j <= start.value ==> !HasExactTabIndex(s[j], t)
  {
    match dir
    case Forward => FirstFrom(s, ForwardFrom(s, start), n => HasExactTabIndex(n, t))
    case Backward => LastUpTo(s, BackwardFrom(s, start), n => HasExactTabIndex(n, t))
  }

  // ---------------------------------------------------------------------
  // nextElementWithGreaterTabIndex

  /** A candidate for nextElementWithGreaterTabIndex: note that the source
      compares the element's own tab index here, not the adjusted one. */
  predicate GreaterCandidate(n: Node, t: int)
  {
    Candidate(n) && n.tabIndex > t
  }

  /** Index `w` beats index `j` in nextElementWithGreaterTabIndex: a lower tab
      index, or the same one earlier in scope order. */
  predicate GreaterWins(s: Scope, w: nat, j: nat)
    requires w < |s| && j < |s|
  {
    s[w].tabIndex < s[j].tabIndex || (s[w].tabIndex == s[j].tabIndex && w <= j)
  }

  /** `w` is the winner of nextElementWithGreaterTabIndex among the nodes
      s[lo..hi]. */
  predicate LeastGreaterIn(s: Scope, t: int, lo: nat, hi: nat, w: nat)
    requires lo <= hi <= |s|
  {
    && lo <= w < hi
    && GreaterCandidate(s[w], t)
    && forall j :: lo <= j < hi && GreaterCandidate(s[j], t) ==> GreaterWins(s, w, j)
  }

  /** The source loop of nextElementWithGreaterTabIndex from node `k` on, with
      the winner found among the nodes before `k`. */
  function GreaterScan(s: Scope, t: int, k: nat, winner: Option<nat>): (r: Option<nat>)
    requires k <= |s|
    requires winner.Some? ==> LeastGreaterIn(s, t, 0, k, winner.value)
    requires winner.None? ==> forall j :: 0 <= j < k ==> !GreaterCandidate(s[j], t)
    decreases |s| - k
    ensures r.Some? ==> LeastGreaterIn(s, t, 0, |s|, r.value)
    ensures r.None? ==> forall j :: 0 <= j < |s| ==> !GreaterCandidate(s[j], t)
  {
    if k == |s| then winner
    else if GreaterCandidate(s[k], t) && (winner.None? || s[k].tabIndex < s[winner.value].tabIndex) then
      GreaterScan(s, t, k + 1, Some(k))
    else
      GreaterScan(s, t, k + 1, winner)
  }

  /** nextElementWithGreaterTabIndex: the focusable element or scope owner
      with the lowest tab index above `t`, the earliest in scope order on a
      tie; None when every candidate has a tab index of at most `t`. */
  function NextElementWithGreaterTabIndex(s: Scope, t: int): (r: Option<nat>)
    ensures r.Some? ==> LeastGreaterIn(s, t, 0, |s|, r.value)
    ensures r.None? ==> forall j :: 0 <= j < |s| ==> !GreaterCandidate(s[j], t)
  {
    GreaterScan(s, t, 0, None)
  }

  // ---------------------------------------------------------------------
  // previousElementWithLowerTabIndex

  /** Below the bound; `None` stands for "no bound at all". */
  predicate Below(v: int, bound: Option<int>)
  {
    bound.None? || v < bound.value
  }

  predicate LowerCandidate(n: Node, bound: Option<int>)
  {
    Candidate(n) && 0 < AdjustedTabIndex(n) && Below(AdjustedTabIndex(n), bound)
  }

  /** Index `w` beats index `j` in previousElementWithLowerTabIndex: a higher
      adjusted tab index, or the same one later in scope order. */
  predicate LowerWins(s: Scope, w: nat, j: nat)
    requires w < |s| && j < |s|
  {
    AdjustedTabIndex(s[j]) < AdjustedTabIndex(s[w])
    || (AdjustedTabIndex(s[j]) == AdjustedTabIndex(s[w]) && j <= w)
  }

  /** `w` is the winner of previousElementWithLowerTabIndex among the nodes
      s[lo..hi]. */
  predicate GreatestLowerIn(s: Scope, bound: Option<int>, lo: nat, hi: nat, w: nat)
    requires lo <= hi <= |s|
  {
    && lo <= w < hi
    && LowerCandidate(s[w], bound)
    && forall j :: lo <= j < hi && LowerCandidate(s[j], bound) ==> LowerWins(s, w, j)
  }

  /** The source loop of previousElementWithLowerTabIndex, walking backward
      from node `k` (-1 once the walk has run off the scope), with the winner
      found among the nodes after `k` up to `top`. */
  function LowerScan(s: Scope, bound: Option<int>, top: nat, k: int, winner: Option<nat>): (r: Option<nat>)
    requires -1 <= k < top <= |s|
    requires winner.Some? ==> GreatestLowerIn(s, bound, k + 1, top, winner.value)
    requires winner.None? ==> forall j :: k < j < top ==> !LowerCandidate(s[j], bound)
    decreases k + 1
    ensures r.Some? ==> GreatestLowerIn(s, bound, 0, top, r.value)
    ensures r.None? ==> forall j :: 0 <= j < top ==> !LowerCandidate(s[j], bound)
  {
    if k == -1 then winner
    else
      var winning := if winner.Some? then AdjustedTabIndex(s[winner.value]) else 0;
      if Candidate(s[k]) && Below(AdjustedTabIndex(s[k]), bound) && AdjustedTabIndex(s[k]) > winning then
        LowerScan(s, bound, top, k - 1, Some(k))
      else
        LowerScan(s, bound, top, k - 1, winner)
  }

  /** previousElementWithLowerTabIndex, walking backward from `start`
      (inclusive): the focusable element or scope owner whose adjusted tab
      index is the highest one that is positive and below `bound`, the latest
      in scope order on a tie. */
  function PreviousElementWithLowerTabIndex(s: Scope, start: Option<nat>, bound: Option<int>): (r: Option<nat>)
    requires start.Some? ==> start.value < |s|
    ensures r.Some? ==> start.Some? && GreatestLowerIn(s, bound, 0, start.value + 1, r.value)
    ensures r.None? && start.Some? ==> forall j :: 0 <= j <= start.value ==> !LowerCandidate(s[j], bound)
  {
    if start.None? then None
    else LowerScan(s, bound, start.value + 1, start.value, None)
  }

  // ---------------------------------------------------------------------
  // nextFocusableElementOrScopeOwner / previousFocusableElementOrScopeOwner

  /** nextFocusableElementOrScopeOwner: the element that Tab moves to from
      `start` (None: from before the first node of the scope). */
  function NextFocusable(s: Scope, start: Option<nat>): (r: Option<nat>)
    requires start.Some? ==> start.value < |s|
    ensures r.Some? ==> r.value < |s| && Candidate(s[r.value])
    // a node out of the tabbing cycle continues in tree order
    ensures start.Some? && StartTabIndex(s, start) < 0 && (exists j :: start.value < j < |s| && InTabOrder(s[j])) ==>
      r.Some? && start.value < r.value && InTabOrder(s[r.value])
      && forall j :: start.value < j < r.value ==> !InTabOrder(s[j])
    // from a tab index 0 node: the next tab index 0 node, and nothing after the last one
    ensures start.Some? && StartTabIndex(s, start) == 0 ==>
      (r.Some? <==> exists j :: start.value < j < |s| && HasExactTabIndex(s[j], 0))
    ensures start.Some? && StartTabIndex(s, start) == 0 && r.Some? ==>
      start.value < r.value && HasExactTabIndex(s[r.value], 0)
      && forall j :: start.value < j < r.value ==> !HasExactTabIndex(s[j], 0)
    // from a null start: the lowest positive tab index, else the first tab index 0 node
    ensures start.None? && (exists j :: 0 <= j < |s| && GreaterCandidate(s[j], 0)) ==>
      r.Some? && LeastGreaterIn(s, 0, 0, |s|, r.value)
    ensures start.None? && (forall j :: 0 <= j < |s| ==> !GreaterCandidate(s[j], 0)) ==>
      r == FirstFrom(s, 0, n => HasExactTabIndex(n, 0))
  {
    var startTabIndex := StartTabIndex(s, start);
    var inTreeOrder :=
      if start.Some? && startTabIndex < 0 then FirstFrom(s, start.value + 1, InTabOrder) else None;
    if inTreeOrder.Some? then inTreeOrder
    else
      var sameIndex :=
        if start.Some? then FindElementWithExactTabIndex(s, NextInScope(s, start.value), startTabIndex, Forward)
        else None;
      if sameIndex.Some? then sameIndex
      else if start.Some? && startTabIndex == 0 then None
      else
        var greater := NextElementWithGreaterTabIndex(s, startTabIndex);
        if greater.Some? then greater
        else FindElementWithExactTabIndex(s, if |s| > 0 then Some(0) else None, 0, Forward)
  }

  /** previousFocusableElementOrScopeOwner, with the bound that the final
      search uses when the start is null or has tab index 0 as a parameter:
      the source passes INT_MAX there. */
  function PreviousFocusableWith(s: Scope, start: Option<nat>, noBound: Option<int>): (r: Option<nat>)
    requires start.Some? ==> start.value < |s|
    ensures r.Some? ==> r.value < |s| && Candidate(s[r.value])
  {
    var last := if |s| > 0 then Some(|s| - 1) else None;
    var startingNode := if start.Some? then PreviousInScope(s, start.value) else last;
    var startingTabIndex := StartTabIndex(s, start);
    var inTreeOrder :=
      if startingTabIndex < 0 then LastUpTo(s, BackwardFrom(s, startingNode), InTabOrder) else None;
    if inTreeOrder.Some? then inTreeOrder
    else
      var sameIndex := FindElementWithExactTabIndex(s, startingNode, startingTabIndex, Backward);
      if sameIndex.Some? then sameIndex
      else
        var bound := if start.Some? && startingTabIndex != 0 then Some(startingTabIndex) else noBound;
        PreviousElementWithLowerTabIndex(s, last, bound)
  }

  /** previousFocusableElementOrScopeOwner as written: INT_MAX stands in for
      "no upper bound". */
  function PreviousFocusableAsWritten(s: Scope, start: Option<nat>): (r: Option<nat>)
    requires start.Some? ==> start.value < |s|
    ensures r.Some? ==> r.value < |s| && Candidate(s[r.value])
  {
    PreviousFocusableWith(s, start, Some(IntMax))
  }

  /** previousFocusableElementOrScopeOwner with a real "no upper bound", so
      that a node whose tab index is INT_MAX is reachable too. */
  function PreviousFocusable(s: Scope, start: Option<nat>): (r: Option<nat>)
    requires start.Some? ==> start.value < |s|
    ensures r.Some? ==> r.value < |s| && Candidate(s[r.value])
    // a node out of the tabbing cycle continues backward in tree order
    ensures start.Some? && StartTabIndex(s, start) < 0 && (exists j :: 0 <= j < start.value && InTabOrder(s[j])) ==>
      r.Some? && r.value < start.value && InTabOrder(s[r.value])
      && forall j :: r.value < j < start.value ==> !InTabOrder(s[j])
  {
    PreviousFocusableWith(s, start, None)
  }

  // ---------------------------------------------------------------------
  // The sequential focus navigation order as a reference

  /** `i` comes before `j` in the sequential focus navigation order: positive
      tab indices first, in ascending order, then tab index 0; ties in scope
      order. Meant for nodes that are InTabOrder. */
  predicate Precedes(s: Scope, i: nat, j: nat)
    requires i < |s| && j < |s|
  {
    var a := AdjustedTabIndex(s[i]);
    var b := AdjustedTabIndex(s[j]);
    || (a > 0 && b > 0 && (a < b || (a == b && i < j)))
    || (a > 0 && b == 0)
    || (a == 0 && b == 0 && i < j)
  }

  /** Nodes that carry no tabindex attribute report 0 or -1 as their tab
      index (the comment in shadowAdjustedTabIndex relies on this). */
  predicate WellFormed(s: Scope)
  {
    forall i :: 0 <= i < |s| && !s[i].tabIndexSetExplicitly ==> s[i].tabIndex <= 0
  }

  predicate ValidStart(s: Scope, start: Option<nat>)
  {
    start.Some? ==> start.value < |s| && InTabOrder(s[start.value])
  }

  /** `r` is the node that follows `start` (None: the beginning) in the order. */
  predicate IsOrderSuccessor(s: Scope, start: Option<nat>, r: nat)
    requires ValidStart(s, start)
  {
    && r < |s| && InTabOrder(s[r])
    && (start.Some? ==> Precedes(s, start.value, r))
    && forall j :: 0 <= j < |s| && InTabOrder(s[j]) && (start.None? || Precedes(s, start.value, j)) ==>
         j == r || Precedes(s, r, j)
  }

  predicate NoOrderSuccessor(s: Scope, start: Option<nat>)
    requires ValidStart(s, start)
  {
    forall j :: 0 <= j < |s| && InTabOrder(s[j]) ==> start.Some? && !Precedes(s, start.value, j)
  }

  /** `r` is the node that precedes `start` (None: the end) in the order. */
  predicate IsOrderPredecessor(s: Scope, start: Option<nat>, r: nat)
    requires ValidStart(s, start)
  {
    && r < |s| && InTabOrder(s[r])
    && (start.Some? ==> Precedes(s, r, start.value))
    && forall j :: 0 <= j < |s| && InTabOrder(s[j]) && (start.None? || Precedes(s, j, start.value)) ==>
         j == r || Precedes(s, j, r)
  }

  predicate NoOrderPredecessor(s: Scope, start: Option<nat>)
    requires ValidStart(s, start)
  {
    forall j :: 0 <= j < |s| && InTabOrder(s[j]) ==> start.Some? && !Precedes(s, j, start.value)
  }

  /** Precedes is a strict total order on the nodes in the tabbing order. */
  lemma PrecedesIsStrictTotalOrder(s: Scope, i: nat, j: nat, k: nat)
    requires i < |s| && j < |s| && k < |s|
    requires InTabOrder(s[i]) && InTabOrder(s[j]) && InTabOrder(s[k])
    ensures !Precedes(s, i, i)
    ensures Precedes(s, i, j) ==> !Precedes(s, j, i)
    ensures i != j ==> Precedes(s, i, j) || Precedes(s, j, i)
    ensures Precedes(s, i, j) && Precedes(s, j, k) ==> Precedes(s, i, k)
  {
  }

  /** Tab follows the sequential focus navigation order: from a node in the
      order (or from the beginning) nextFocusableElementOrScopeOwner returns
      the next node of the order, and None after the last one. */
  lemma NextFollowsTabOrder(s: Scope, start: Option<nat>)
    requires WellFormed(s)
    requires ValidStart(s, start)
    ensures NextFocusable(s, start).Some? ==> IsOrderSuccessor(s, start, NextFocusable(s, start).value)
    ensures NextFocusable(s, start).None? ==> NoOrderSuccessor(s, start)
  {
    if start.None? {
      NextFromBeginning(s);
    } else if StartTabIndex(s, start) == 0 {
      NextFromTabIndexZero(s, start.value);
    } else {
      NextFromPositive(s, start.value);
    }
  }

  lemma NextFromTabIndexZero(s: Scope, x: nat)
    requires WellFormed(s)
    requires x < |s| && InTabOrder(s[x]) && AdjustedTabIndex(s[x]) == 0
    ensures NextFocusable(s, Some(x)).Some? ==> IsOrderSuccessor(s, Some(x), NextFocusable(s, Some(x)).value)
    ensures NextFocusable(s, Some(x)).None? ==> NoOrderSuccessor(s, Some(x))
  {
    // Only later tab index 0 nodes follow a tab index 0 node.
    forall j | 0 <= j < |s| && InTabOrder(s[j]) && Precedes(s, x, j)
      ensures x < j && HasExactTabIndex(s[j], 0)
    {
    }
  }

  lemma NextFromPositive(s: Scope, x: nat)
    requires WellFormed(s)
    requires x < |s| && InTabOrder(s[x]) && AdjustedTabIndex(s[x]) > 0
    ensures NextFocusable(s, Some(x)).Some? ==> IsOrderSuccessor(s, Some(x), NextFocusable(s, Some(x)).value)
    ensures NextFocusable(s, Some(x)).None? ==> NoOrderSuccessor(s, Some(x))
  {
    var t := AdjustedTabIndex(s[x]);
    var sameIndex := FindElementWithExactTabIndex(s, NextInScope(s, x), t, Forward);
    var greater := NextElementWithGreaterTabIndex(s, t);
    if sameIndex.None? && greater.Some? {
      GreaterIsAdjusted(s, t, greater.value);
      forall j | 0 <= j < |s| && InTabOrder(s[j]) && Precedes(s, x, j)
        ensures j == greater.value || Precedes(s, greater.value, j)
      {
        GreaterIsAdjusted(s, t, j);
      }
    } else if sameIndex.None? {
      forall j | 0 <= j < |s| && InTabOrder(s[j]) && Precedes(s, x, j)
        ensures AdjustedTabIndex(s[j]) == 0
      {
        GreaterIsAdjusted(s, t, j);
      }
    }
  }

  lemma NextFromBeginning(s: Scope)
    requires WellFormed(s)
    ensures NextFocusable(s, None).Some? ==> IsOrderSuccessor(s, None, NextFocusable(s, None).value)
    ensures NextFocusable(s, None).None? ==> NoOrderSuccessor(s, None)
  {
    var greater := NextElementWithGreaterTabIndex(s, 0);
    if greater.Some? {
      GreaterIsAdjusted(s, 0, greater.value);
      forall j | 0 <= j < |s| && InTabOrder(s[j])
        ensures j == greater.value || Precedes(s, greater.value, j)
      {
        GreaterIsAdjusted(s, 0, j);
      }
    } else {
      forall j | 0 <= j < |s| && InTabOrder(s[j])
        ensures AdjustedTabIndex(s[j]) == 0
      {
        GreaterIsAdjusted(s, 0, j);
      }
    }
  }

  /** In a well-formed scope the own and the adjusted tab index agree on
      every candidate whose own tab index is above a non-negative bound. */
  lemma GreaterIsAdjusted(s: Scope, t: int, j: nat)
    requires WellFormed(s) && 0 <= t && j < |s| && Candidate(s[j])
    ensures s[j].tabIndex > t <==> AdjustedTabIndex(s[j]) > t
    ensures s[j].tabIndex > t ==> AdjustedTabIndex(s[j]) == s[j].tabIndex
  {
  }

  /** Shift-Tab follows the sequential focus navigation order backward: from
      a node in the order (or from the end) previousFocusableElementOrScopeOwner
      returns the node before it, and None before the first one. */
  lemma PreviousFollowsTabOrder(s: Scope, start: Option<nat>)
    requires ValidStart(s, start)
    ensures PreviousFocusable(s, start).Some? ==> IsOrderPredecessor(s, start, PreviousFocusable(s, start).value)
    ensures PreviousFocusable(s, start).None? ==> NoOrderPredecessor(s, start)
  {
  }

  /** Tab then Shift-Tab comes back to where it started. */
  lemma PreviousUndoesNext(s: Scope, x: nat)
    requires WellFormed(s)
    requires x < |s| && InTabOrder(s[x])
    requires NextFocusable(s, Some(x)).Some?
    ensures PreviousFocusable(s, NextFocusable(s, Some(x))) == Some(x)
  {
    var y := NextFocusable(s, Some(x)).value;
    NextFollowsTabOrder(s, Some(x));
    PreviousFollowsTabOrder(s, Some(y));
    var z := PreviousFocusable(s, Some(y));
    if z.Some? {
      PrecedesIsStrictTotalOrder(s, x, z.value, y);
    }
  }

  /** Shift-Tab then Tab comes back to where it started. */
  lemma NextUndoesPrevious(s: Scope, x: nat)
    requires WellFormed(s)
    requires x < |s| && InTabOrder(s[x])
    requires PreviousFocusable(s, Some(x)).Some?
    ensures NextFocusable(s, PreviousFocusable(s, Some(x))) == Some(x)
  {
    var y := PreviousFocusable(s, Some(x)).value;
    PreviousFollowsTabOrder(s, Some(x));
    NextFollowsTabOrder(s, Some(y));
    var z := NextFocusable(s, Some(y));
    if z.Some? {
      PrecedesIsStrictTotalOrder(s, y, z.value, x);
    }
  }

  // ---------------------------------------------------------------------
  // INT_MAX used as "no bound"

  /** When no node has tab index INT_MAX the source's sentinel is harmless. */
  lemma AsWrittenAgreesBelowIntMax(s: Scope, start: Option<nat>)
    requires start.Some? ==> start.value < |s|
    requires forall j :: 0 <= j < |s| ==> s[j].tabIndex < IntMax
    ensures PreviousFocusableAsWritten(s, start) == PreviousFocusable(s, start)
  {
  }

  /** A scope whose root (a document, not an element) holds a single
      focusable element with tabindex 2147483647: Tab from the beginning
      reaches it, Shift-Tab from the end as written does not. */
  function IntMaxScope(): Scope
  {
    [Node(false, false, false, 0, false), Node(true, true, false, IntMax, true)]
  }

  lemma IntMaxTabIndexUnreachableBackward()
    ensures NextFocusable(IntMaxScope(), None) == Some(1)
    ensures PreviousFocusableAsWritten(IntMaxScope(), None) == None
    ensures PreviousFocusable(IntMaxScope(), None) == Some(1)
  {
  }
}

=== FILE: FocusScope.dfy ===
/** FocusNavigationScope's tree walk (nextInScope / previousInScope) for a
    scope rooted at a tree scope's root node.

    A node is named by its path of child indices from the scope root. The
    walk is a pre-order traversal that never descends into a scope owner (the
    nodes under a shadow host or slot belong to the nested scope). */
module FocusScope {
  import opened Options
  import FocusOrder

  datatype Tree = Tree(node: FocusOrder.Node, children: seq<Tree>)

  type Path = seq<nat>

  /** isFocusScopeOwner, as firstChildInScope and lastChildInScope test it:
      only an element can own a scope. */
  predicate OwnsScope(t: Tree)
  {
    t.node.isElement && t.node.isScopeOwner
  }

  predicate ValidPath(t: Tree, p: Path)
    decreases |p|
  {
    |p| == 0 || (p[0] < |t.children| && ValidPath(t.children[p[0]], p[1..]))
  }

  /** The node at path p. */
  function At(t: Tree, p: Path): Tree
    requires ValidPath(t, p)
    decreases |p|
  {
    if |p| == 0 then t else At(t.children[p[0]], p[1..])
  }

  function Parent(p: Path): Path
    requires |p| > 0
  {
    p[..|p| - 1]
  }

  // ---------------------------------------------------------------------
  // The walk

  /** firstChildInScope: none below a scope owner. */
  function FirstChildInScope(t: Tree, p: Path): (r: Option<Path>)
    requires ValidPath(t, p)
    ensures r.Some? <==> !OwnsScope(At(t, p)) && |At(t, p).children| > 0
    ensures r.Some? ==> r.value == p + [0]
  {
    var n := At(t, p);
    if OwnsScope(n) || |n.children| == 0 then None else Some(p + [0])
  }

  /** lastChildInScope: none below a scope owner. */
  function LastChildInScope(t: Tree, p: Path): (r: Option<Path>)
    requires ValidPath(t, p)
    ensures r.Some? <==> !OwnsScope(At(t, p)) && |At(t, p).children| > 0
    ensures r.Some? ==> r.value == p + [|At(t, p).children| - 1]
  {
    var n := At(t, p);
    if OwnsScope(n) || |n.children| == 0 then None else Some(p + [|n.children| - 1])
  }

  /** parentInScope: the scope root has no parent in the scope. */
  function ParentInScope(p: Path): (r: Option<Path>)
    ensures r.None? <==> |p| == 0
    ensures r.Some? ==> r.value + [p[|p| - 1]] == p
  {
    if |p| == 0 then None else Some(Parent(p))
  }

  /** nextSiblingInScope: the scope root has no siblings. */
  function NextSiblingInScope(t: Tree, p: Path): (r: Option<Path>)
    requires ValidPath(t, p)
    ensures r.Some? ==> |p| > 0 && r.value == Parent(p) + [p[|p| - 1] + 1]
    ensures |p| > 0 && ValidPath(t, Parent(p)) ==> (r.Some? <==> p[|p| - 1] + 1 < |At(t, Parent(p)).children|)
  {
    if |p| == 0 then None
    else
      PrefixIsValid(t, p);
      var i := p[|p| - 1];
      if i + 1 < |At(t, Parent(p)).children| then Some(Parent(p) + [i + 1]) else None
  }

  /** previousSiblingInScope: the scope root has no siblings. */
  function PreviousSiblingInScope(t: Tree, p: Path): (r: Option<Path>)
    requires ValidPath(t, p)
    ensures r.Some? <==> |p| > 0 && p[|p| - 1] > 0
    ensures r.Some? ==> r.value == Parent(p) + [p[|p| - 1] - 1]
  {
    if |p| == 0 then None
    else
      var i := p[|p| - 1];
      if i > 0 then Some(Parent(p) + [i - 1]) else None
  }

  /** The loop at the end of nextInScope: climb while the node has no next
      sibling, then take the next sibling of where the climb stopped. */
  function AncestorNextSibling(t: Tree, p: Path): Option<Path>
    requires ValidPath(t, p)
    decreases |p|
  {
    var sibling := NextSiblingInScope(t, p);
    if sibling.Some? then sibling
    else if |p| == 0 then None
    else
      PrefixIsValid(t, p);
      AncestorNextSibling(t, Parent(p))
  }

  /** nextInScope: the first child, unless the node owns a scope; else the
      next sibling; else the next sibling of the nearest ancestor that has
      one; else none. */
  function NextInScope(t: Tree, p: Path): Option<Path>
    requires ValidPath(t, p)
  {
    var child := FirstChildInScope(t, p);
    if child.Some? then child
    else
      var sibling := NextSiblingInScope(t, p);
      if sibling.Some? then sibling
      else AncestorNextSibling(t, p)
  }

  /** The `while (lastChildInScope(current))` descent of previousInScope,
      as a path relative to the subtree it starts from. */
  function LastDescendantInScope(u: Tree): Path
  {
    if OwnsScope(u) || |u.children| == 0 then []
    else [|u.children| - 1] + LastDescendantInScope(u.children[|u.children| - 1])
  }

  /** previousInScope: the deepest last descendant of the previous sibling,
      else the parent. */
  function PreviousInScope(t: Tree, p: Path): Option<Path>
    requires ValidPath(t, p)
  {
    var sibling := PreviousSiblingInScope(t, p);
    if sibling.Some? then
      SiblingIsValid(t, p);
      Some(sibling.value + LastDescendantInScope(At(t, sibling.value)))
    else ParentInScope(p)
  }

  // ---------------------------------------------------------------------
  // Paths

  lemma PrefixIsValid(t: Tree, p: Path)
    requires ValidPath(t, p) && |p| > 0
    ensures ValidPath(t, Parent(p))
    ensures p[|p| - 1] < |At(t, Parent(p)).children|
    ensures At(t, p) == At(t, Parent(p)).children[p[|p| - 1]]
    decreases |p|
  {
    if |p| == 1 {
      assert Parent(p) == [];
      assert p[1..] == [];
    } else {
      assert Parent(p)[1..] == Parent(p[1..]);
      PrefixIsValid(t.children[p[0]], p[1..]);
    }
  }

  lemma SiblingIsValid(t: Tree, p: Path)
    requires ValidPath(t, p)
    ensures PreviousSiblingInScope(t, p).Some? ==> ValidPath(t, PreviousSiblingInScope(t, p).value)
    ensures NextSiblingInScope(t, p).Some? ==> ValidPath(t, NextSiblingInScope(t, p).value)
  {
    if |p| > 0 {
      PrefixIsValid(t, p);
      ExtendIsValid(t, Parent(p), p[|p| - 1]);
      if p[|p| - 1] > 0 {
        ExtendIsValid(t, Parent(p), p[|p| - 1] - 1);
      }
      if p[|p| - 1] + 1 < |At(t, Parent(p)).children| {
        ExtendIsValid(t, Parent(p), p[|p| - 1] + 1);
      }
    }
  }

  lemma {:induction false} ExtendIsValid(t: Tree, p: Path, i: nat)
    requires ValidPath(t, p) && i < |At(t, p).children|
    decreases |p|
    ensures ValidPath(t, p + [i]) && At(t, p + [i]) == At(t, p).children[i]
  {
    if |p| > 0 {
      assert (p + [i])[1..] == p[1..] + [i];
      ExtendIsValid(t.children[p[0]], p[1..], i);
    }
  }

  lemma ConsIsValid(t: Tree, i: nat, q: Path)
    requires i < |t.children|
    ensures ValidPath(t, [i] + q) <==> ValidPath(t.children[i], q)
    ensures ValidPath(t.children[i], q) ==> At(t, [i] + q) == At(t.children[i], q)
  {
    assert ([i] + q)[0] == i && ([i] + q)[1..] == q;
  }

  /** The descent of previousInScope ends at a node that has no last child
      in the scope, i.e. where the source's `while (lastChildInScope(...))`
      loop stops. */
  lemma {:induction false} LastDescendantEndsDescent(u: Tree)
    ensures ValidPath(u, LastDescendantInScope(u))
    ensures LastChildInScope(u, LastDescendantInScope(u)).None?
  {
    if !OwnsScope(u) && |u.children| > 0 {
      var n := |u.children| - 1;
      var below := LastDescendantInScope(u.children[n]);
      LastDescendantEndsDescent(u.children[n]);
      ConsIsValid(u, n, below);
    }
  }
}

=== FILE: FocusScopeLift.dfy ===
/** The tree walk below child i of a node is the walk in child i's
    subtree, with i put in front of every path: the step that lets the
    lemmas of FocusScopeOrder proceed by induction on the tree. */
module FocusScopeLift {
  import opened Options
  import opened FocusScope

  function LiftPath(i: nat, r: Option<Path>): Option<Path>
  {
    if r.Some? then Some([i] + r.value) else None
  }

  lemma ParentOfCons(i: nat, q: Path)
    requires |q| > 0
    ensures Parent([i] + q) == [i] + Parent(q)
    ensures ([i] + q)[|[i] + q| - 1] == q[|q| - 1]
  {
  }

  lemma NextSiblingBelow(t: Tree, i: nat, q: Path)
    requires i < |t.children| && ValidPath(t.children[i], q) && ValidPath(t, [i] + q)
    ensures |q| > 0 ==> NextSiblingInScope(t, [i] + q) == LiftPath(i, NextSiblingInScope(t.children[i], q))
    ensures |q| == 0 ==> NextSiblingInScope(t, [i] + q) == if i + 1 < |t.children| then Some([i + 1]) else None
  {
    if |q| > 0 {
      NextSiblingDeeper(t, i, q);
    } else {
      assert [i] + q == [i];
      NextSiblingOfChild(t, i);
    }
  }

  lemma NextSiblingDeeper(t: Tree, i: nat, q: Path)
    requires i < |t.children| && ValidPath(t.children[i], q) && ValidPath(t, [i] + q) && |q| > 0
    ensures NextSiblingInScope(t, [i] + q) == LiftPath(i, NextSiblingInScope(t.children[i], q))
  {
    var c := t.children[i];
    var last := q[|q| - 1];
    var up := Parent(q);
    ParentOfCons(i, q);
    PrefixIsValid(c, q);
    ConsIsValid(t, i, up);
    var siblings := |At(c, up).children|;
    assert NextSiblingInScope(c, q) == if last + 1 < siblings then Some(up + [last + 1]) else None;
    assert NextSiblingInScope(t, [i] + q) == if last + 1 < siblings then Some([i] + up + [last + 1]) else None;
    assert [i] + up + [last + 1] == [i] + (up + [last + 1]);
  }

  lemma NextSiblingOfChild(t: Tree, i: nat)
    requires i < |t.children| && ValidPath(t, [i])
    ensures NextSiblingInScope(t, [i]) == if i + 1 < |t.children| then Some([i + 1]) else None
  {
    ChildPath(t, i);
    assert At(t, Parent([i])) == t;
    assert [] + [i + 1] == [i + 1];
  }

  lemma {:induction false} AncestorNextSiblingBelow(t: Tree, i: nat, q: Path)
    requires i < |t.children| && ValidPath(t.children[i], q) && ValidPath(t, [i] + q)
    decreases |q|
    ensures AncestorNextSibling(t, [i] + q) ==
      var inside := AncestorNextSibling(t.children[i], q);
      if inside.Some? then Some([i] + inside.value)
      else if i + 1 < |t.children| then Some([i + 1]) else None
  {
    ConsIsValid(t, i, q);
    NextSiblingBelow(t, i, q);
    if |q| > 0 && NextSiblingInScope(t.children[i], q).None? {
      ParentOfCons(i, q);
      PrefixIsValid(t.children[i], q);
      ConsIsValid(t, i, Parent(q));
      AncestorNextSiblingBelow(t, i, Parent(q));
    } else if |q| == 0 {
      assert [i] + q == [i];
      assert Parent([i]) == [];
    }
  }

  lemma NextInScopeBelow(t: Tree, i: nat, q: Path)
    requires i < |t.children| && ValidPath(t.children[i], q) && ValidPath(t, [i] + q)
    ensures NextInScope(t, [i] + q) ==
      var inside := NextInScope(t.children[i], q);
      if inside.Some? then Some([i] + inside.value)
      else if i + 1 < |t.children| then Some([i + 1]) else None
  {
    ConsIsValid(t, i, q);
    NextSiblingBelow(t, i, q);
    AncestorNextSiblingBelow(t, i, q);
    assert [i] + q + [0] == [i] + (q + [0]);
  }

  lemma PreviousInScopeBelow(t: Tree, i: nat, q: Path)
    requires i < |t.children| && ValidPath(t.children[i], q) && ValidPath(t, [i] + q)
    ensures |q| > 0 ==> PreviousInScope(t, [i] + q) == LiftPath(i, PreviousInScope(t.children[i], q))
    ensures |q| == 0 ==>
      PreviousInScope(t, [i] + q) == if i > 0 then Some([i - 1] + LastDescendantInScope(t.children[i - 1])) else Some([])
  {
    ConsIsValid(t, i, q);
    if |q| == 0 {
      assert [i] + q == [i];
      if i > 0 {
        PreviousOfLaterChild(t, i);
      } else {
        PreviousOfFirstChild(t);
      }
    } else if PreviousSiblingInScope(t.children[i], q).Some? {
      PreviousBelowWithSibling(t, i, q);
    } else {
      PreviousBelowWithoutSibling(t, i, q);
    }
  }

  lemma PreviousBelowWithSibling(t: Tree, i: nat, q: Path)
    requires i < |t.children| && ValidPath(t.children[i], q) && ValidPath(t, [i] + q)
    requires PreviousSiblingInScope(t.children[i], q).Some?
    ensures PreviousInScope(t, [i] + q) == LiftPath(i, PreviousInScope(t.children[i], q))
  {
    var c := t.children[i];
    var sibling := PreviousSiblingInScope(c, q).value;
    PreviousSiblingBelow(t, i, q);
    PreviousViaSibling(c, q);
    PreviousViaSibling(t, [i] + q);
    ConsIsValid(t, i, sibling);
    var below := LastDescendantInScope(At(c, sibling));
    assert [i] + sibling + below == [i] + (sibling + below);
  }

  lemma PreviousSiblingBelow(t: Tree, i: nat, q: Path)
    requires i < |t.children| && ValidPath(t.children[i], q) && ValidPath(t, [i] + q) && |q| > 0
    ensures PreviousSiblingInScope(t, [i] + q) == LiftPath(i, PreviousSiblingInScope(t.children[i], q))
  {
    var last := q[|q| - 1];
    ParentOfCons(i, q);
    if last > 0 {
      assert [i] + Parent(q) + [last - 1] == [i] + (Parent(q) + [last - 1]);
    }
  }

  /** previousInScope when the node has a previous sibling. */
  lemma PreviousViaSibling(t: Tree, p: Path)
    requires ValidPath(t, p) && PreviousSiblingInScope(t, p).Some?
    ensures ValidPath(t, PreviousSiblingInScope(t, p).value)
    ensures PreviousInScope(t, p) ==
      Some(PreviousSiblingInScope(t, p).value + LastDescendantInScope(At(t, PreviousSiblingInScope(t, p).value)))
  {
    SiblingIsValid(t, p);
  }

  lemma PreviousBelowWithoutSibling(t: Tree, i: nat, q: Path)
    requires i < |t.children| && ValidPath(t.children[i], q) && ValidPath(t, [i] + q) && |q| > 0
    requires PreviousSiblingInScope(t.children[i], q).None?
    ensures PreviousInScope(t, [i] + q) == LiftPath(i, PreviousInScope(t.children[i], q))
  {
    ConsIsValid(t, i, q);
    ParentOfCons(i, q);
  }

  lemma PreviousOfLaterChild(t: Tree, i: nat)
    requires 0 < i < |t.children| && ValidPath(t, [i])
    ensures PreviousInScope(t, [i]) == Some([i - 1] + LastDescendantInScope(t.children[i - 1]))
  {
    ChildPath(t, i);
    ChildPath(t, i - 1);
  }

  lemma PreviousOfFirstChild(t: Tree)
    requires 0 < |t.children| && ValidPath(t, [0])
    ensures PreviousInScope(t, [0]) == Some([])
  {
    ChildPath(t, 0);
  }

  /** The path of child i. */
  lemma ChildPath(t: Tree, i: nat)
    requires i < |t.children|
    ensures ValidPath(t, [i]) && At(t, [i]) == t.children[i]
    ensures Parent([i]) == [] && [] + [i] == [i]
  {
    ConsIsValid(t, i, []);
    assert [i] + [] == [i];
  }
}

=== FILE: FocusScopeOrder.dfy ===
/** The order FocusNavigationScope's tree walk follows: the nodes of a
    scope in pre-order, without the nodes below a scope owner. The lemmas
    prove that nextInScope and previousInScope step through this order one
    node at a time, so the selection rules of the module FocusOrder, which
    work on the flattened order, see the same scope the tree walk does. */
module FocusScopeOrder {
  import opened Options
  import FocusOrder
  import opened FocusScope
  import opened FocusScopeLift

  function Lift(i: nat, ps: seq<Path>): (r: seq<Path>)
    ensures |r| == |ps|
    ensures forall k :: 0 <= k < |ps| ==> r[k] == [i] + ps[k]
  {
    seq(|ps|, k requires 0 <= k < |ps| => [i] + ps[k])
  }

  /** The nodes of the scope in pre-order, without the nodes below a scope
      owner. */
  function ScopeOrder(t: Tree): (r: seq<Path>)
    decreases t, 1
    ensures |r| >= 1 && r[0] == []
  {
    [[]] + (if OwnsScope(t) then [] else ChildrenOrder(t, 0))
  }

  /** The scope order of the subtrees of children i, i+1, ... of t. */
  function ChildrenOrder(t: Tree, i: nat): (r: seq<Path>)
    requires i <= |t.children|
    decreases t, 0, |t.children| - i
    ensures i < |t.children| ==> |r| > 0 && r[0] == [i]
  {
    if i == |t.children| then []
    else Lift(i, ScopeOrder(t.children[i])) + ChildrenOrder(t, i + 1)
  }

  /** The scope as the selection rules see it: its nodes in scope order. */
  function Flatten(t: Tree): (r: FocusOrder.Scope)
    ensures |r| == |ScopeOrder(t)|
  {
    var order := ScopeOrder(t);
    seq(|order|, k requires 0 <= k < |order| =>
      ScopeOrderIsValid(t);
      At(t, order[k]).node)
  }

  // ---------------------------------------------------------------------
  // Validity

  lemma {:induction false} ScopeOrderIsValid(t: Tree)
    decreases t, 1
    ensures forall k :: 0 <= k < |ScopeOrder(t)| ==> ValidPath(t, ScopeOrder(t)[k])
  {
    if !OwnsScope(t) {
      ChildrenOrderIsValid(t, 0);
    }
  }

  lemma {:induction false} ChildrenOrderIsValid(t: Tree, i: nat)
    requires i <= |t.children|
    decreases t, 0, |t.children| - i
    ensures forall k :: 0 <= k < |ChildrenOrder(t, i)| ==> ValidPath(t, ChildrenOrder(t, i)[k])
  {
    if i < |t.children| {
      var c := t.children[i];
      ScopeOrderIsValid(c);
      ChildrenOrderIsValid(t, i + 1);
      var block := Lift(i, ScopeOrder(c));
      forall k | 0 <= k < |block|
        ensures ValidPath(t, block[k])
      {
        ConsIsValid(t, i, ScopeOrder(c)[k]);
      }
    }
  }

  // ---------------------------------------------------------------------
  // The walk follows ScopeOrder

  /** nextInScope moves from each node of the scope order to the one after
      it, and from the last one to none. */
  lemma {:induction false} NextInScopeFollowsScopeOrder(t: Tree, k: nat)
    requires k < |ScopeOrder(t)|
    decreases t, 1
    ensures ValidPath(t, ScopeOrder(t)[k])
    ensures NextInScope(t, ScopeOrder(t)[k]) ==
      if k + 1 < |ScopeOrder(t)| then Some(ScopeOrder(t)[k + 1]) else None
  {
    ScopeOrderIsValid(t);
    if k == 0 {
      if !OwnsScope(t) && |t.children| > 0 {
        assert [] + [0] == [0];
        assert ScopeOrder(t)[1] == ChildrenOrder(t, 0)[0] == [0];
      } else {
        assert |ScopeOrder(t)| == 1;
      }
    } else {
      assert !OwnsScope(t);
      assert ScopeOrder(t)[k] == ChildrenOrder(t, 0)[k - 1];
      NextInChildrenOrder(t, 0, k - 1);
    }
  }

  lemma {:induction false} NextInChildrenOrder(t: Tree, i: nat, k: nat)
    requires i <= |t.children| && k < |ChildrenOrder(t, i)|
    decreases t, 0, |t.children| - i
    ensures ValidPath(t, ChildrenOrder(t, i)[k])
    ensures NextInScope(t, ChildrenOrder(t, i)[k]) ==
      if k + 1 < |ChildrenOrder(t, i)| then Some(ChildrenOrder(t, i)[k + 1]) else None
  {
    var c := t.children[i];
    var inner := ScopeOrder(c);
    var rest := ChildrenOrder(t, i + 1);
    assert ChildrenOrder(t, i) == Lift(i, inner) + rest;
    if k < |inner| {
      NextInScopeFollowsScopeOrder(c, k);
      ConsIsValid(t, i, inner[k]);
      NextInScopeBelow(t, i, inner[k]);
      if k + 1 == |inner| && i + 1 < |t.children| {
        assert ChildrenOrder(t, i)[k + 1] == rest[0] == [i + 1];
      }
    } else {
      NextInChildrenOrder(t, i + 1, k - |inner|);
    }
  }

  /** previousInScope moves from each node of the scope order to the one
      before it, and from the scope root to none. */
  lemma {:induction false} PreviousInScopeFollowsScopeOrder(t: Tree, k: nat)
    requires k < |ScopeOrder(t)|
    decreases t, 1
    ensures ValidPath(t, ScopeOrder(t)[k])
    ensures PreviousInScope(t, ScopeOrder(t)[k]) ==
      if k > 0 then Some(ScopeOrder(t)[k - 1]) else None
  {
    ScopeOrderIsValid(t);
    if k > 0 {
      assert !OwnsScope(t);
      assert ScopeOrder(t)[k] == ChildrenOrder(t, 0)[k - 1];
      PreviousInChildrenOrder(t, 0, k - 1);
    }
  }

  /** The node before child i's subtree in the scope order. */
  function BeforeChild(t: Tree, i: nat): Path
    requires i <= |t.children|
  {
    if i > 0 then [i - 1] + LastDescendantInScope(t.children[i - 1]) else []
  }

  lemma {:induction false} PreviousInChildrenOrder(t: Tree, i: nat, k: nat)
    requires i <= |t.children| && k < |ChildrenOrder(t, i)|
    decreases t, 0, |t.children| - i
    ensures ValidPath(t, ChildrenOrder(t, i)[k])
    ensures PreviousInScope(t, ChildrenOrder(t, i)[k]) ==
      if k > 0 then Some(ChildrenOrder(t, i)[k - 1]) else Some(BeforeChild(t, i))
  {
    var c := t.children[i];
    var inner := ScopeOrder(c);
    var rest := ChildrenOrder(t, i + 1);
    assert ChildrenOrder(t, i) == Lift(i, inner) + rest;
    if k < |inner| {
      PreviousInScopeFollowsScopeOrder(c, k);
      ConsIsValid(t, i, inner[k]);
      PreviousInScopeBelow(t, i, inner[k]);
    } else {
      PreviousInChildrenOrder(t, i + 1, k - |inner|);
      if k == |inner| {
        LastOfScopeOrder(c);
        assert ChildrenOrder(t, i)[k - 1] == [i] + inner[|inner| - 1];
      }
    }
  }

  /** The last node of a scope order is the deepest last descendant that
      previousInScope descends to. */
  lemma {:induction false} LastOfScopeOrder(u: Tree)
    decreases u
    ensures ScopeOrder(u)[|ScopeOrder(u)| - 1] == LastDescendantInScope(u)
  {
    if !OwnsScope(u) && |u.children| > 0 {
      var n := |u.children| - 1;
      LastOfChildrenOrder(u, 0);
      LastOfScopeOrder(u.children[n]);
    }
  }

  lemma {:induction false} LastOfChildrenOrder(u: Tree, i: nat)
    requires i < |u.children|
    decreases |u.children| - i
    ensures var order := ChildrenOrder(u, i);
      var last := ScopeOrder(u.children[|u.children| - 1]);
      order[|order| - 1] == [|u.children| - 1] + last[|last| - 1]
  {
    if i + 1 < |u.children| {
      LastOfChildrenOrder(u, i + 1);
    }
  }

  /** The selection rules may work on the flattened scope: stepping with
      nextInScope / previousInScope in the tree is stepping by one index in
      Flatten(t). */
  lemma TreeWalkIsFlatWalk(t: Tree, k: nat)
    requires k < |ScopeOrder(t)|
    ensures ValidPath(t, ScopeOrder(t)[k])
    ensures NextInScope(t, ScopeOrder(t)[k]) ==
      (var j := FocusOrder.NextInScope(Flatten(t), k); if j.Some? then Some(ScopeOrder(t)[j.value]) else None)
    ensures PreviousInScope(t, ScopeOrder(t)[k]) ==
      (var j := FocusOrder.PreviousInScope(Flatten(t), k); if j.Some? then Some(ScopeOrder(t)[j.value]) else None)
  {
    NextInScopeFollowsScopeOrder(t, k);
    PreviousInScopeFollowsScopeOrder(t, k);
  }
}

=== FILE: MainThread.dfy ===
/** WTF's main-thread dispatcher (MainThread.cpp, the PLATFORM(WKC) build) as
    a sequential state machine.

    Any thread may append a work item to the function queue; the main thread
    drains the queue in FIFO order, yielding to the host run loop once a
    drain has run for longer than a time budget. The platform hook
    scheduleDispatchFunctionsOnMainThread ("make the run loop call the drain
    soon") is modelled by a call counter and by the pending-request flag the
    run loop clears when it calls the drain. Locks, real threads and real
    time are not modelled: the order in which operations happen is, and the
    clock is injected as the duration of every executed item. */
module MainThread {
  import opened Options

  type ThreadId = nat

  /** A work item (a `Function<void()>`), identified by an opaque id. */
  type Item = nat

  /** The value a GC thread registers with; the enumeration itself is
      declared in MainThread.h, which is not part of this model. */
  datatype GCThreadType = GCThreadType(tag: nat)

  /** What executing one work item did, as far as the dispatcher can see:
      how long it ran (in milliseconds) and which items it dispatched with
      callOnMainThread while running, in order. */
  datatype Effect = Effect(duration: nat, enqueued: seq<Item>)

  /** The dispatcher's global state.
      - queue: functionQueue(), front first;
      - paused: callbacksPaused;
      - mainThread: the thread initializeMainThread ran on; in the WKC build
        initializeKey is set in the same step, so "initialized" is
        `mainThread.Some?`;
      - gcThreads: the isGCThread thread-specific slot, None while the
        pointer is null, otherwise the threads that registered a role;
      - hookCalls: how often scheduleDispatchFunctionsOnMainThread was called;
      - drainScheduled: a request made through that hook that the run loop
        has not served yet. */
  datatype Dispatcher = Dispatcher(
    queue: seq<Item>,
    paused: bool,
    mainThread: Option<ThreadId>,
    gcThreads: Option<map<ThreadId, GCThreadType>>,
    hookCalls: nat,
    drainScheduled: bool)

  /** maxRunLoopSuspensionTime, in milliseconds. */
  const MaxRunLoopSuspensionTime: nat := 50

  /** The state of a process before anything ran. */
  function Initial(): Dispatcher
  {
    Dispatcher([], false, None, None, 0, false)
  }

  predicate Initialized(d: Dispatcher)
  {
    d.mainThread.Some?
  }

  /** scheduleDispatchFunctionsOnMainThread. */
  function ScheduleDispatch(d: Dispatcher): (r: Dispatcher)
    ensures r.hookCalls == d.hookCalls + 1 && r.drainScheduled
    ensures r.queue == d.queue && r.paused == d.paused
    ensures r.mainThread == d.mainThread && r.gcThreads == d.gcThreads
  {
    d.(hookCalls := d.hookCalls + 1, drainScheduled := true)
  }

  // ---------------------------------------------------------------------
  // Initialization and thread roles

  /** initializeGCThreads: allocates the registry once; a second call keeps
      every registration. */
  function InitializeGCThreads(d: Dispatcher): (r: Dispatcher)
    ensures r.gcThreads.Some?
    ensures d.gcThreads.Some? ==> r == d
    ensures d.gcThreads.None? ==> r.gcThreads.value == map[]
    ensures r.(gcThreads := d.gcThreads) == d
  {
    if d.gcThreads.None? then d.(gcThreads := Some(map[])) else d
  }

  /** initializeMainThread: the first call makes its caller the main thread
      and allocates the GC registry; every later call changes nothing. */
  function InitializeMainThread(d: Dispatcher, caller: ThreadId): (r: Dispatcher)
    ensures Initialized(d) ==> r == d
    ensures !Initialized(d) ==> r.mainThread == Some(caller) && r.gcThreads.Some?
    ensures !Initialized(d) && d.gcThreads.Some? ==> r.gcThreads == d.gcThreads
    ensures !Initialized(d) && d.gcThreads.None? ==> r.gcThreads == Some(map[])
    ensures r.queue == d.queue && r.paused == d.paused
    ensures r.hookCalls == d.hookCalls && r.drainScheduled == d.drainScheduled
  {
    if Initialized(d) then d
    else InitializeGCThreads(d.(mainThread := Some(caller)))
  }

  /** isMainThread: false for every thread before initialization. */
  predicate IsMainThread(d: Dispatcher, t: ThreadId)
  {
    d.mainThread == Some(t)
  }

  /** registerGCThread: records the role for the calling thread, or does
      nothing when the registry was never allocated. */
  function RegisterGCThread(d: Dispatcher, caller: ThreadId, role: GCThreadType): (r: Dispatcher)
    ensures d.gcThreads.None? ==> r == d
    ensures d.gcThreads.Some? ==> r.gcThreads.Some? && r.gcThreads.value.Keys == d.gcThreads.value.Keys + {caller}
    ensures d.gcThreads.Some? ==> r.gcThreads == Some(d.gcThreads.value[caller := role])
    ensures r.(gcThreads := d.gcThreads) == d
  {
    if d.gcThreads.None? then d
    else d.(gcThreads := Some(d.gcThreads.value[caller := role]))
  }

  /** mayBeGCThread: the role the thread registered, None when it never did
      or when the registry was never allocated. */
  function MayBeGCThread(d: Dispatcher, t: ThreadId): (r: Option<GCThreadType>)
    ensures d.gcThreads.None? ==> r.None?
    ensures d.gcThreads.Some? ==> (r.Some? <==> t in d.gcThreads.value)
    ensures r.Some? ==> d.gcThreads.Some? && t in d.gcThreads.value && d.gcThreads.value[t] == r.value
  {
    if d.gcThreads.None? then None
    else if t !in d.gcThreads.value then None
    else Some(d.gcThreads.value[t])
  }

  /** isMainThreadOrGCThread. */
  predicate IsMainThreadOrGCThread(d: Dispatcher, t: ThreadId)
  {
    MayBeGCThread(d, t).Some? || IsMainThread(d, t)
  }

  /** After a registration the thread reports exactly that role and every
      other thread reports what it did before. */
  lemma RegisterThenQuery(d: Dispatcher, caller: ThreadId, role: GCThreadType, t: ThreadId)
    requires d.gcThreads.Some?
    ensures MayBeGCThread(RegisterGCThread(d, caller, role), caller) == Some(role)
    ensures t != caller ==> MayBeGCThread(RegisterGCThread(d, caller, role), t) == MayBeGCThread(d, t)
    ensures IsMainThreadOrGCThread(RegisterGCThread(d, caller, role), caller)
  {
  }

  /** A thread that never registered is privileged only if it is the main
      thread; the main thread always is. */
  lemma UnregisteredIsOnlyMain(d: Dispatcher, t: ThreadId)
    requires d.gcThreads.None? || t !in d.gcThreads.value
    ensures IsMainThreadOrGCThread(d, t) <==> IsMainThread(d, t)
  {
  }

  /** Initialization happens once: whoever calls next, the main thread and
      the role registry stay as the first call left them. */
  lemma InitializeIsIdempotent(d: Dispatcher, first: ThreadId, second: ThreadId, t: ThreadId)
    requires !Initialized(d)
    ensures InitializeMainThread(InitializeMainThread(d, first), second) == InitializeMainThread(d, first)
    ensures IsMainThread(InitializeMainThread(InitializeMainThread(d, first), second), t) <==> t == first
  {
  }

  // ---------------------------------------------------------------------
  // Enqueueing

  /** callOnMainThread: appends the item and asks for a drain only when the
      queue was empty before. In the WKC build the queue mutex is created by
      initializeMainThread, so the call needs an initialized dispatcher. */
  function CallOnMainThread(d: Dispatcher, item: Item): (r: Dispatcher)
    requires Initialized(d)
    ensures r.queue == d.queue + [item]
    ensures |d.queue| == 0 ==> r.hookCalls == d.hookCalls + 1 && r.drainScheduled
    ensures |d.queue| > 0 ==> r.hookCalls == d.hookCalls && r.drainScheduled == d.drainScheduled
    ensures r.paused == d.paused && r.mainThread == d.mainThread && r.gcThreads == d.gcThreads
  {
    var needToSchedule := |d.queue| == 0;
    var appended := d.(queue := d.queue + [item]);
    if needToSchedule then ScheduleDispatch(appended) else appended
  }

  /** A series of callOnMainThread calls, in order. */
  function CallAllOnMainThread(d: Dispatcher, items: seq<Item>): (r: Dispatcher)
    requires Initialized(d)
    decreases |items|
    ensures r.queue == d.queue + items
    ensures r.paused == d.paused && r.mainThread == d.mainThread && r.gcThreads == d.gcThreads
    ensures r.drainScheduled == (d.drainScheduled || (|d.queue| == 0 && |items| > 0))
    // one notification for the empty to non-empty transition, none otherwise
    ensures r.hookCalls == d.hookCalls + (if |d.queue| == 0 && |items| > 0 then 1 else 0)
  {
    if |items| == 0 then d
    else CallAllOnMainThread(CallOnMainThread(d, items[0]), items[1..])
  }

  // ---------------------------------------------------------------------
  // Draining

  /** The effect of the k-th item a drain executes; the clock does not move
      for items past the end of the list. */
  function EffectAt(effects: seq<Effect>, k: nat): Effect
  {
    if k < |effects| then effects[k] else Effect(0, [])
  }

  /** Time elapsed after the first n items of a drain completed. */
  function Elapsed(effects: seq<Effect>, n: nat): nat
  {
    if n == 0 then 0 else Elapsed(effects, n - 1) + EffectAt(effects, n - 1).duration
  }

  /** The items dispatched by executed items number lo .. hi-1, in order. */
  function Spawned(effects: seq<Effect>, lo: nat, hi: nat): seq<Item>
    requires lo <= hi
    decreases hi - lo
  {
    if lo == hi then [] else EffectAt(effects, lo).enqueued + Spawned(effects, lo + 1, hi)
  }

  /** No executed item dispatches anything. */
  predicate NoSpawns(effects: seq<Effect>)
  {
    forall k :: 0 <= k < |effects| ==> effects[k].enqueued == []
  }

  datatype DrainResult = DrainResult(after: Dispatcher, executed: seq<Item>, yielded: bool)

  /** The `while (true)` loop of dispatchFunctionsFromMainThread, entered
      after k items ran: take the front item, run it (its own dispatches go
      through callOnMainThread), and leave the loop when the queue is empty or
      when the time since the drain started exceeds the budget, re-arming the
      hook in that case. */
  function DispatchLoop(d: Dispatcher, effects: seq<Effect>, budget: nat, k: nat): (r: DrainResult)
    requires Initialized(d)
    decreases if k < |effects| then |effects| - k else 0, |d.queue|
    ensures !r.yielded ==> r.after.queue == []
    ensures |d.queue| > 0 ==> |r.executed| > 0
    ensures r.yielded ==> r.after.drainScheduled && |r.executed| > 0
    ensures d.drainScheduled ==> r.after.drainScheduled
    ensures r.after.hookCalls >= d.hookCalls
    ensures r.after.paused == d.paused && r.after.mainThread == d.mainThread
    ensures r.after.gcThreads == d.gcThreads
  {
    if |d.queue| == 0 then DrainResult(d, [], false)
    else
      var front := d.queue[0];
      var afterRun := RunFront(d, EffectAt(effects, k));
      if Elapsed(effects, k + 1) > budget then
        DrainResult(ScheduleDispatch(afterRun), [front], true)
      else
        var rest := DispatchLoop(afterRun, effects, budget, k + 1);
        DrainResult(rest.after, [front] + rest.executed, rest.yielded)
  }

  /** takeFirst, then running the item, whose own dispatches go through
      callOnMainThread. */
  function RunFront(d: Dispatcher, effect: Effect): (r: Dispatcher)
    requires Initialized(d) && |d.queue| > 0
    ensures r.queue == d.queue[1..] + effect.enqueued
    ensures r.paused == d.paused && r.mainThread == d.mainThread && r.gcThreads == d.gcThreads
    ensures effect.enqueued == [] ==> r.hookCalls == d.hookCalls && r.drainScheduled == d.drainScheduled
    ensures r.hookCalls >= d.hookCalls && (d.drainScheduled ==> r.drainScheduled)
  {
    CallAllOnMainThread(d.(queue := d.queue[1..]), effect.enqueued)
  }

  /** FIFO and no loss: what the loop ran, followed by what is left queued,
      is what was queued followed by what the running items dispatched. */
  lemma {:induction false} LoopKeepsOrder(d: Dispatcher, effects: seq<Effect>, budget: nat, k: nat)
    requires Initialized(d)
    decreases if k < |effects| then |effects| - k else 0, |d.queue|
    ensures var r := DispatchLoop(d, effects, budget, k);
      r.executed + r.after.queue == d.queue + Spawned(effects, k, k + |r.executed|)
  {
    if |d.queue| > 0 {
      var front := d.queue[0];
      var effect := EffectAt(effects, k);
      var afterRun := RunFront(d, effect);
      var r := DispatchLoop(d, effects, budget, k);
      if Elapsed(effects, k + 1) > budget {
        assert r.executed == [front] && r.after.queue == afterRun.queue;
        assert Spawned(effects, k, k + 1) == effect.enqueued;
        assert d.queue == [front] + d.queue[1..];
      } else {
        var rest := DispatchLoop(afterRun, effects, budget, k + 1);
        assert r.executed == [front] + rest.executed && r.after.queue == rest.after.queue;
        LoopKeepsOrder(afterRun, effects, budget, k + 1);
        var later := Spawned(effects, k + 1, k + 1 + |rest.executed|);
        assert Spawned(effects, k, k + 1 + |rest.executed|) == effect.enqueued + later;
        ConsBothSides(front, d.queue[1..], rest.executed, rest.after.queue, effect.enqueued, later);
        assert d.queue == [front] + d.queue[1..];
      }
    }
  }

  /** Running the front item keeps the order of everything behind it. */
  lemma ConsBothSides(front: Item, rest: seq<Item>, ran: seq<Item>, left: seq<Item>, mine: seq<Item>, later: seq<Item>)
    requires ran + left == (rest + mine) + later
    ensures ([front] + ran) + left == ([front] + rest) + (mine + later)
  {
    calc {
      ([front] + ran) + left;
      [front] + (ran + left);
      [front] + ((rest + mine) + later);
      ([front] + rest) + (mine + later);
    }
  }

  /** The loop stops right after the first item whose completion takes the
      elapsed time past the budget, and never earlier unless the queue ran
      empty. */
  lemma {:induction false} LoopRespectsBudget(d: Dispatcher, effects: seq<Effect>, budget: nat, k: nat)
    requires Initialized(d)
    decreases if k < |effects| then |effects| - k else 0, |d.queue|
    ensures var r := DispatchLoop(d, effects, budget, k);
      forall n :: k < n <= k + |r.executed| ==>
        (Elapsed(effects, n) > budget <==> r.yielded && n == k + |r.executed|)
  {
    if |d.queue| > 0 && Elapsed(effects, k + 1) <= budget {
      LoopRespectsBudget(RunFront(d, EffectAt(effects, k)), effects, budget, k + 1);
    }
  }

  /** Without dispatches from the running items, the loop calls the hook
      once when it yields and not at all otherwise. */
  lemma {:induction false} LoopHookCalls(d: Dispatcher, effects: seq<Effect>, budget: nat, k: nat)
    requires Initialized(d)
    requires NoSpawns(effects)
    decreases if k < |effects| then |effects| - k else 0, |d.queue|
    ensures var r := DispatchLoop(d, effects, budget, k);
      r.after.hookCalls == d.hookCalls + (if r.yielded then 1 else 0)
  {
    if |d.queue| > 0 {
      assert EffectAt(effects, k).enqueued == [];
      var afterRun := RunFront(d, EffectAt(effects, k));
      if Elapsed(effects, k + 1) <= budget {
        LoopHookCalls(afterRun, effects, budget, k + 1);
      }
    }
  }

  /** dispatchFunctionsFromMainThread, called on the main thread: nothing
      happens while callbacks are paused; otherwise the loop above runs from a
      fresh start time. */
  function DispatchFunctionsFromMainThread(d: Dispatcher, caller: ThreadId, effects: seq<Effect>, budget: nat): (r: DrainResult)
    requires IsMainThread(d, caller)
    ensures d.paused ==> r.after == d && r.executed == [] && !r.yielded
    ensures !d.paused ==> r.executed + r.after.queue == d.queue + Spawned(effects, 0, |r.executed|)
    ensures !d.paused && !r.yielded ==> r.after.queue == []
    ensures forall n :: 0 < n <= |r.executed| ==>
              (Elapsed(effects, n) > budget <==> r.yielded && n == |r.executed|)
    ensures !d.paused && |d.queue| > 0 ==> |r.executed| > 0
    ensures r.yielded ==> r.after.drainScheduled
    ensures d.drainScheduled ==> r.after.drainScheduled
    ensures r.after.paused == d.paused && r.after.mainThread == d.mainThread
    ensures r.after.gcThreads == d.gcThreads
    ensures NoSpawns(effects) ==> r.after.hookCalls == d.hookCalls + (if r.yielded then 1 else 0)
  {
    if d.paused then DrainResult(d, [], false)
    else
      LoopKeepsOrder(d, effects, budget, 0);
      LoopRespectsBudget(d, effects, budget, 0);
      if NoSpawns(effects) then
        LoopHookCalls(d, effects, budget, 0);
        DispatchLoop(d, effects, budget, 0)
      else
        DispatchLoop(d, effects, budget, 0)
  }

  lemma {:induction false} SpawnedNone(effects: seq<Effect>, lo: nat, hi: nat)
    requires NoSpawns(effects) && lo <= hi
    decreases hi - lo
    ensures Spawned(effects, lo, hi) == []
  {
    if lo < hi {
      SpawnedNone(effects, lo + 1, hi);
    }
  }

  /** When no executed item dispatches anything, a drain runs a prefix of the
      queue in order and leaves exactly the rest queued. */
  lemma DrainRunsPrefix(d: Dispatcher, caller: ThreadId, effects: seq<Effect>, budget: nat)
    requires IsMainThread(d, caller) && !d.paused && NoSpawns(effects)
    ensures var r := DispatchFunctionsFromMainThread(d, caller, effects, budget);
      && |r.executed| <= |d.queue|
      && r.executed == d.queue[..|r.executed|]
      && r.after.queue == d.queue[|r.executed|..]
      && r.after.hookCalls == d.hookCalls + (if r.yielded then 1 else 0)
  {
    var r := DispatchFunctionsFromMainThread(d, caller, effects, budget);
    SpawnedNone(effects, 0, |r.executed|);
    assert r.executed + r.after.queue == d.queue;
  }

  /** Work dispatched from any number of callOnMainThread calls runs in
      exactly the order of the calls, after what was already queued, when a
      drain has the time to run it all. */
  lemma FifoAcrossCalls(d: Dispatcher, caller: ThreadId, items: seq<Item>, effects: seq<Effect>, budget: nat)
    requires IsMainThread(d, caller) && !d.paused && NoSpawns(effects)
    requires Elapsed(effects, |effects|) <= budget
    ensures DispatchFunctionsFromMainThread(CallAllOnMainThread(d, items), caller, effects, budget).executed
            == d.queue + items
  {
    var d' := CallAllOnMainThread(d, items);
    var r := DispatchFunctionsFromMainThread(d', caller, effects, budget);
    SpawnedNone(effects, 0, |r.executed|);
    ElapsedBounded(effects, |r.executed|);
    assert !r.yielded;
    assert r.executed + r.after.queue == d.queue + items;
  }

  /** The clock stops once the injected durations are used up. */
  lemma {:induction false} ElapsedBounded(effects: seq<Effect>, n: nat)
    ensures Elapsed(effects, n) <= Elapsed(effects, |effects|)
  {
    if n <= |effects| {
      ElapsedMonotoneFrom(effects, n, |effects|);
    } else {
      ElapsedBounded(effects, n - 1);
    }
  }

  lemma {:induction false} ElapsedMonotoneFrom(effects: seq<Effect>, m: nat, n: nat)
    requires m <= n
    decreases n - m
    ensures Elapsed(effects, m) <= Elapsed(effects, n)
  {
    if m < n {
      ElapsedMonotoneFrom(effects, m, n - 1);
    }
  }

  // ---------------------------------------------------------------------
  // Pausing and the synchronous call

  /** setMainThreadCallbacksPaused, on the main thread: nothing happens when
      the value does not change; resuming asks for a drain, pausing does not. */
  function SetMainThreadCallbacksPaused(d: Dispatcher, caller: ThreadId, paused: bool): (r: Dispatcher)
    requires IsMainThread(d, caller)
    ensures d.paused == paused ==> r == d
    ensures r.paused == paused
    ensures r.queue == d.queue && r.mainThread == d.mainThread && r.gcThreads == d.gcThreads
    ensures paused ==> r.hookCalls == d.hookCalls && r.drainScheduled == d.drainScheduled
    ensures d.paused && !paused ==> r.hookCalls == d.hookCalls + 1 && r.drainScheduled
  {
    if d.paused == paused then d
    else
      var updated := d.(paused := paused);
      if !updated.paused then ScheduleDispatch(updated) else updated
  }

  datatype WaitResult = WaitResult(after: Dispatcher, ranInline: seq<Item>)

  /** callOnMainThreadAndWait: on the main thread the item runs at once
      (whatever it dispatches goes through callOnMainThread); elsewhere it is
      dispatched like any other item and the caller blocks, which is not
      modelled. */
  function CallOnMainThreadAndWait(d: Dispatcher, caller: ThreadId, item: Item, effect: Effect): (r: WaitResult)
    requires Initialized(d)
    ensures IsMainThread(d, caller) ==> r.ranInline == [item] && r.after.queue == d.queue + effect.enqueued
    ensures IsMainThread(d, caller) && effect.enqueued == [] ==> r.after == d
    ensures !IsMainThread(d, caller) ==> r.ranInline == [] && r.after == CallOnMainThread(d, item)
  {
    if IsMainThread(d, caller) then WaitResult(CallAllOnMainThread(d, effect.enqueued), [item])
    else WaitResult(CallOnMainThread(d, item), [])
  }

  // ---------------------------------------------------------------------
  // Interleavings

  /** The operations that can happen, one at a time. */
  datatype Op =
    | Initialize(caller: ThreadId)
    | InitializeGC
    | Register(caller: ThreadId, role: GCThreadType)
    | Call(item: Item)
    | CallAndWait(caller: ThreadId, item: Item, effect: Effect)
    | RunLoopDispatch(effects: seq<Effect>)
    | SetPaused(paused: bool)

  /** Dispatching needs an initialized dispatcher; draining and pausing are
      done by the main thread, which exists only after initialization. */
  predicate Enabled(d: Dispatcher, op: Op)
  {
    match op
    case Call(_) => Initialized(d)
    case CallAndWait(_, _, _) => Initialized(d)
    case RunLoopDispatch(_) => Initialized(d)
    case SetPaused(_) => Initialized(d)
    case _ => true
  }

  /** One operation. The run loop serves the pending request and calls the
      drain on the main thread with the real budget. */
  function Step(d: Dispatcher, op: Op): Dispatcher
    requires Enabled(d, op)
  {
    match op
    case Initialize(caller) => InitializeMainThread(d, caller)
    case InitializeGC => InitializeGCThreads(d)
    case Register(caller, role) => RegisterGCThread(d, caller, role)
    case Call(item) => CallOnMainThread(d, item)
    case CallAndWait(caller, item, effect) => CallOnMainThreadAndWait(d, caller, item, effect).after
    case RunLoopDispatch(effects) =>
      DispatchFunctionsFromMainThread(d.(drainScheduled := false), d.mainThread.value, effects, MaxRunLoopSuspensionTime).after
    case SetPaused(paused) => SetMainThreadCallbacksPaused(d, d.mainThread.value, paused)
  }

  /** No queued work is stranded: while callbacks are not paused, a non-empty
      queue always has a drain request outstanding. Also, work is queued only
      after initialization, which allocates the GC registry. */
  predicate Valid(d: Dispatcher)
  {
    && (|d.queue| > 0 && !d.paused ==> d.drainScheduled)
    && (|d.queue| > 0 ==> Initialized(d))
    && (Initialized(d) ==> d.gcThreads.Some?)
  }

  lemma InitialIsValid()
    ensures Valid(Initial())
  {
  }

  /** Every operation keeps the dispatcher valid. */
  lemma StepKeepsValid(d: Dispatcher, op: Op)
    requires Valid(d) && Enabled(d, op)
    ensures Valid(Step(d, op))
  {
    match op
    case RunLoopDispatch(effects) =>
      var r := DispatchFunctionsFromMainThread(d.(drainScheduled := false), d.mainThread.value, effects, MaxRunLoopSuspensionTime);
      assert |r.after.queue| > 0 && !r.after.paused ==> r.yielded;
    case _ =>
  }

  /** A run of operations, each enabled when it happens. */
  predicate Runnable(d: Dispatcher, ops: seq<Op>)
    decreases |ops|
  {
    |ops| == 0 || (Enabled(d, ops[0]) && Runnable(Step(d, ops[0]), ops[1..]))
  }

  function Run(d: Dispatcher, ops: seq<Op>): Dispatcher
    requires Runnable(d, ops)
    decreases |ops|
  {
    if |ops| == 0 then d else Run(Step(d, ops[0]), ops[1..])
  }

  /** Every reachable state is valid. */
  lemma {:induction false} RunKeepsValid(d: Dispatcher, ops: seq<Op>)
    requires Valid(d) && Runnable(d, ops)
    decreases |ops|
    ensures Valid(Run(d, ops))
  {
    if |ops| > 0 {
      StepKeepsValid(d, ops[0]);
      RunKeepsValid(Step(d, ops[0]), ops[1..]);
    }
  }

  /** The run loop serving one drain request after another. */
  function RunLoopDispatches(d: Dispatcher, rounds: seq<seq<Effect>>): Dispatcher
    requires Initialized(d)
    decreases |rounds|
  {
    if |rounds| == 0 then d
    else
      var next := Step(d, RunLoopDispatch(rounds[0]));
      assert next.mainThread == d.mainThread;
      RunLoopDispatches(next, rounds[1..])
  }

  /** Time-boxing never loses work: with callbacks resumed and no new work,
      as many run loop turns as there are queued items empty the queue,
      however long each item takes. */
  lemma {:induction false} RunLoopEmptiesQueue(d: Dispatcher, rounds: seq<seq<Effect>>)
    requires Initialized(d) && !d.paused
    requires |rounds| >= |d.queue|
    requires forall i :: 0 <= i < |rounds| ==> NoSpawns(rounds[i])
    decreases |rounds|
    ensures RunLoopDispatches(d, rounds).queue == []
  {
    if |rounds| > 0 {
      var next := Step(d, RunLoopDispatch(rounds[0]));
      if |d.queue| > 0 {
        DrainRunsPrefix(d.(drainScheduled := false), d.mainThread.value, rounds[0], MaxRunLoopSuspensionTime);
      }
      assert |next.queue| <= |d.queue| && (|d.queue| > 0 ==> |next.queue| < |d.queue|);
      assert forall i :: 0 <= i < |rounds[1..]| ==> NoSpawns(rounds[1..][i]);
      RunLoopEmptiesQueue(next, rounds[1..]);
    }
  }
}

=== FILE: Options.dfy ===
/** The optional value used wherever the source returns a possibly-null pointer
    or a `std::optional`. */
module Options {

  datatype Option<+T> = None | Some(value: T)
}
